=== FILE: README.md ===
# S3 blob store facade: a Dafny model

This project models the decision logic of GeoWebCache's S3 blob store
(`S3BlobStore` and its nested `Bounds` class). It covers:

- the bounded-prefix text format that `delete(TileRange)` hands to the
  asynchronous deletion scheduler, and the parser that reads it back;
- what each facade call writes, deletes, schedules for asynchronous deletion,
  returns or throws, and which listener notification it sends;
- the start-up connection check that tries the bucket-policy and bucket-ACL
  probes in turn.

Nothing here talks to S3. The object store, the deletion scheduler
(`S3Ops.scheduleAsyncDelete`, `prefixExists`, `deleteObject`), the key layout
(`TMSKeyBuilder`) and the MIME registry are parameters. A facade call returns
a `Trace`: its Java outcome (a value or an exception) plus the ordered log of
effects it caused (object writes and deletions, scheduled prefixes, listener
notifications).

Modules, in dependency order:

- `Primitives`: `Option`, the Java `long` and `int` ranges, and narrowing
  to `int` with wrap-around.
- `Decimal`: decimal text as `Long.toString` writes it and `Long.parseLong`
  reads it, including the overflow of a too-long digit run.
- `BoundsGrammar`: the `Bounds` pattern
  `^(?<prefix>.*/)\?bounds=(\d+),(\d+),(\d+),(\d+)$`, written as an explicit
  matcher. The matcher is proved sound and complete against a declarative
  grammar (`Denotes`), and every match is unique.
- `BoundsFilter`: the `Bounds` value. It covers the constructor,
  `createBounds`, `prefixWithoutBounds`, `toString` and `predicate`, with
  the round trip between writing and parsing.
- `BlobStore`: tiles, tile ranges, the store and key-layout oracles,
  notifications, the effect log, and a listener's view of which tiles exist.
- `S3BlobStore`: `put`, `delete(TileObject)`, `delete(layerName)`,
  `deleteByGridsetId`, `deleteByParametersId` and `delete(TileRange)` with
  `scheduleDeleteForZoomLevel`.
- `ClientValidation`: `validateClient`.

Java semantics that are modelled explicitly:

- `.` in the pattern does not match the Java line terminators (`\n`, `\r`,
  U+0085, U+2028, U+2029).
- `\d` means ASCII digits.
- `matches()` must consume the whole string, so the prefix group always ends
  at the last `/`.
- `Long.parseLong` of a digit run above `Long.MAX_VALUE` throws, modelled as
  `NumberFormatError`.
- `(int) oldObj.getContentLength()` wraps (`ToInt`).
- In `delete(TileRange)`, `zoomStop + 1` and `zoomStop - zoomStart + 1` are
  `int` arithmetic. A `zoomStop` of `Integer.MAX_VALUE` therefore visits no
  level, and the call returns `false`.

Writing a zoom path, `?` and a rectangle and then parsing the result gives
back the zoom path and the rectangle only when both of these hold:

- the zoom path ends in `/` and, before that slash, holds no line terminator;
- no coordinate is negative (`toString` writes a `-` that `\d+` does not
  accept).

Otherwise the written prefix does not match the pattern at all:
`createBounds` yields no rectangle and `prefixWithoutBounds` returns the
whole prefix. `BoundsFilter.RoundTrip` states both halves, and
`S3BlobStore.LevelPrefixesReadBack` carries them over to every prefix that
`delete(TileRange)` schedules.

## Model

| member | source | states |
|---|---|---|
| BoundsFilter.FromArray | geowebcache/s3storage/src/main/java/org/geowebcache/s3/S3BlobStore.java:482-487 | The rectangle built from a corner array has min ≤ max on both axes. Its x bounds are the array's first and third entries in some order, and its y bounds the second and fourth. |
| BoundsFilter.CornerOrderIrrelevant | geowebcache/s3storage/src/main/java/org/geowebcache/s3/S3BlobStore.java:482-487 | Two corner arrays with the same x pair and the same y pair, in any order, build the same rectangle. |
| BoundsFilter.FromOwnCorners | geowebcache/s3storage/src/main/java/org/geowebcache/s3/S3BlobStore.java:482-487 | Rebuilding a rectangle from its own min and max corners gives it back exactly when it is normalized. |
| BoundsFilter.ParsedRuns | geowebcache/s3storage/src/main/java/org/geowebcache/s3/S3BlobStore.java:503-509 | Reading four matched digit runs throws the overflow error exactly when some run's value exceeds `Long.MAX_VALUE`. Otherwise it yields a normalized, non-negative rectangle whose x bounds are the first and third values and whose y bounds are the second and fourth. |
| BoundsFilter.CreateBounds | geowebcache/s3storage/src/main/java/org/geowebcache/s3/S3BlobStore.java:497-510 | Any rectangle `createBounds` yields is normalized and non-negative. |
| BoundsFilter.PrefixWithoutBounds | geowebcache/s3storage/src/main/java/org/geowebcache/s3/S3BlobStore.java:512-518 | The listing prefix is a prefix of the input. When it differs from the input, it ends in `/` and holds no line terminator before that slash. |
| BoundsFilter.AllOrNothing | geowebcache/s3storage/src/main/java/org/geowebcache/s3/S3BlobStore.java:497-518 | `createBounds` is empty exactly when `prefixWithoutBounds` returns the input unchanged, and exactly when the input matches no decomposition of the pattern. A matching input yields that decomposition's prefix and parsed runs. |
| BoundsFilter.FormatShape | geowebcache/s3storage/src/main/java/org/geowebcache/s3/S3BlobStore.java:520-523 | For non-negative coordinates, `toString` writes `bounds=` and then the four coordinates' digit runs joined by commas, which is exactly the text the pattern's four groups read. A negative coordinate shows up as a `-`. The text never holds a `/` or a `?`. |
| BoundsFilter.SuffixedDenotes | geowebcache/s3storage/src/main/java/org/geowebcache/s3/S3BlobStore.java:300-303 | For a valid zoom path and non-negative coordinates, the prefix `zoomPath?bounds=…` is accepted by the pattern, with the zoom path as the prefix group and the written digit runs as the four coordinate groups. |
| BoundsFilter.RoundTrip | geowebcache/s3storage/src/main/java/org/geowebcache/s3/S3BlobStore.java:497-523 | `zoomPath + "?" + bounds.toString()` parses back to the same rectangle and strips back to the zoom path exactly when the path is a valid prefix group and no coordinate is negative. Otherwise it parses to nothing and strips to itself. |
| BoundsFilter.OnlyValidSuffixedMatch | geowebcache/s3storage/src/main/java/org/geowebcache/s3/S3BlobStore.java:478-479 | Any match of a written bounded prefix captures the written zoom path as its prefix group. It exists only for a valid path and non-negative coordinates. |
| BoundsFilter.Predicate | geowebcache/s3storage/src/main/java/org/geowebcache/s3/S3BlobStore.java:525-533 | A key the tile-key pattern rejects is never inside. Any other key is inside exactly when both its coordinates lie within the rectangle's bounds, edges included. |
| BoundsFilter.PredicateSpansCorners | geowebcache/s3storage/src/main/java/org/geowebcache/s3/S3BlobStore.java:482-533 | A rectangle built from a corner array accepts exactly the keys whose coordinates lie between the two given corners on each axis. |
| BoundsGrammar.Match | geowebcache/s3storage/src/main/java/org/geowebcache/s3/S3BlobStore.java:478-479 | Every match the matcher reports is a decomposition of the input that the pattern accepts. |
| BoundsGrammar.MatchComplete | geowebcache/s3storage/src/main/java/org/geowebcache/s3/S3BlobStore.java:478-479 | Every decomposition the pattern accepts is the one the matcher reports. |
| BoundsGrammar.MatchExactly | geowebcache/s3storage/src/main/java/org/geowebcache/s3/S3BlobStore.java:478-479 | The matcher reports a decomposition if and only if the pattern accepts it. |
| BoundsGrammar.Unambiguous | geowebcache/s3storage/src/main/java/org/geowebcache/s3/S3BlobStore.java:478-479 | A string has at most one decomposition under the pattern, so the named groups are well defined. |
| BoundsGrammar.RunsOfJoin | geowebcache/s3storage/src/main/java/org/geowebcache/s3/S3BlobStore.java:479 | Splitting comma-joined digit runs back at the commas gives the same runs. |
| Decimal.LongToString | geowebcache/s3storage/src/main/java/org/geowebcache/s3/S3BlobStore.java:520-523 | A non-negative `long` is written as canonical digits whose value is the number. A negative one is written as `-` followed by canonical digits of its magnitude. |
| Decimal.ParseLong | geowebcache/s3storage/src/main/java/org/geowebcache/s3/S3BlobStore.java:504-507 | A digit run parses to its value when that fits in a `long`. Otherwise parsing fails, and the value exceeds `Long.MAX_VALUE`. |
| Decimal.ValueOfNatToString | geowebcache/s3storage/src/main/java/org/geowebcache/s3/S3BlobStore.java:520-523 | Reading back the digits written for a number gives the number. |
| Decimal.NatToStringOfValue | geowebcache/s3storage/src/main/java/org/geowebcache/s3/S3BlobStore.java:504-507 | Writing out the value of a canonical digit run gives the run back. |
| Primitives.ToInt | geowebcache/s3storage/src/main/java/org/geowebcache/s3/S3BlobStore.java:370 | The `(int)` cast keeps every value already in `int` range. Any other value maps to one congruent to it modulo 2^32. |
| S3BlobStore.Put | geowebcache/s3storage/src/main/java/org/geowebcache/s3/S3BlobStore.java:189-238 | An unknown format throws a wrapped `MimeException` before any effect. Otherwise the tile's bytes are written first, and only properties writes and notifications follow. The properties writes are exactly the parameters document of `putParametersMetadata`. Nothing is scheduled, and the key then holds an object of the blob's size. Listeners get `tileUpdated` with the old size if the key existed and `tileStored` if it did not, as the last effect; without listeners nothing is sent. |
| S3BlobStore.ParametersWrite | geowebcache/s3storage/src/main/java/org/geowebcache/s3/S3BlobStore.java:414-426 | A tile with parameters leads to exactly one properties write, under the layer's parameters-metadata key for the tile's parameters id, holding those parameters. A tile without parameters leads to no write. It changes no object, schedules nothing and notifies no one. |
| S3BlobStore.TileNotice | geowebcache/s3storage/src/main/java/org/geowebcache/s3/S3BlobStore.java:228-238 | Without listeners nothing is sent. With listeners exactly one notification is sent: `tileUpdated` with the stored size when the key held an object, `tileStored` otherwise. It changes no object and writes or schedules nothing. |
| S3BlobStore.PutKeepsListenersInStep | geowebcache/s3storage/src/main/java/org/geowebcache/s3/S3BlobStore.java:228-238 | With listeners, `put` sends exactly one notification. It agrees with a listener's view of existing tiles, and afterwards the view equals the store's sizes. |
| S3BlobStore.DeleteTile | geowebcache/s3storage/src/main/java/org/geowebcache/s3/S3BlobStore.java:355-373 | Without listeners, it deletes the key, returns the store's answer, sends nothing and leaves the caller's tile alone. With listeners and an absent key, it returns false with no effect at all. With listeners and a present key, it deletes the key, returns true, records the stored size cast to `int` on the caller's tile, and sends one `tileDeleted` carrying that updated tile. Afterwards the key holds no object and every other key is unchanged. |
| S3BlobStore.DeleteTileListenersAgree | geowebcache/s3storage/src/main/java/org/geowebcache/s3/S3BlobStore.java:358-369 | When the store's answer to a deletion says whether the object existed, `delete(TileObject)` returns the same value and leaves the same objects with listeners as without. |
| S3BlobStore.DeleteTileKeepsListenersInStep | geowebcache/s3storage/src/main/java/org/geowebcache/s3/S3BlobStore.java:358-372 | With listeners, `delete(TileObject)` sends at most one notification. It agrees with a listener's view, and afterwards the view equals the store's sizes. |
| S3BlobStore.SchedulePrefixes | geowebcache/s3storage/src/main/java/org/geowebcache/s3/S3BlobStore.java:440-450 | Each prefix is scheduled in order until the scheduler throws. Without a throw, the combined answer is true exactly when some prefix had content, so a `true` answer does not stop the run. |
| S3BlobStore.RunSatisfiesCoarseDelete | geowebcache/s3storage/src/main/java/org/geowebcache/s3/S3BlobStore.java:436-455 | A scheduling run followed by the notification when some prefix had content meets the coarse-delete reference behaviour: the prefixes are scheduled in order up to the first failure, and the notification, when sent, is the last effect. |
| S3BlobStore.DeleteLayer | geowebcache/s3storage/src/main/java/org/geowebcache/s3/S3BlobStore.java:313-332 | The layer metadata is deleted first, unconditionally. Every later effect is a scheduling step or a notification, so the metadata object is the only object removed. The layer prefix is scheduled, and `layerDeleted` is sent, as the last effect, exactly when it returns true. A `GeoWebCacheException` is rethrown wrapped in a `RuntimeException`. |
| S3BlobStore.DeleteByGridsetId | geowebcache/s3storage/src/main/java/org/geowebcache/s3/S3BlobStore.java:334-352 | Only the gridset prefix is scheduled, and `gridSubsetDeleted` is sent, as the last effect, exactly when it returns true. A `GeoWebCacheException` is rethrown wrapped. |
| S3BlobStore.DeleteByParametersId | geowebcache/s3storage/src/main/java/org/geowebcache/s3/S3BlobStore.java:436-455 | Every parameters prefix is scheduled, without short-circuiting. The call returns the logical or of the answers and sends `parametersDeleted`, after all the scheduling, exactly when that is true. The first failure ends the run and is rethrown as the cause of a `RuntimeException`: the `GeoWebCacheException` itself, or the unchecked exception. |
| S3BlobStore.ZoomPrefixReadsBack | geowebcache/s3storage/src/main/java/org/geowebcache/s3/S3BlobStore.java:300-303 | The prefix scheduled for a zoom level reads back under `prefixWithoutBounds` and `createBounds` as the level's zoom path and rectangle when the path is a valid prefix group and no coordinate is negative. Otherwise `createBounds` yields no rectangle and `prefixWithoutBounds` returns the whole prefix. |
| S3BlobStore.LevelPrefixesReadBack | geowebcache/s3storage/src/main/java/org/geowebcache/s3/S3BlobStore.java:290-303 | The same holds for every prefix `delete(TileRange)` builds: the one at index `i` reads back as level `zoomStart + i`, under the same two conditions. |
| S3BlobStore.ScheduleLevels | geowebcache/s3storage/src/main/java/org/geowebcache/s3/S3BlobStore.java:291-311 | Each level prefix is scheduled in order. A checked failure only leaves its level uncounted, while an unchecked one ends the run. When the run completes, every level counts exactly when every scheduling returned. |
| S3BlobStore.DeleteRange | geowebcache/s3storage/src/main/java/org/geowebcache/s3/S3BlobStore.java:278-298 | A negative start, or a stop before the start, throws `IllegalArgumentException` with the source's message. Otherwise a range without content returns false and schedules nothing. A range with content schedules the level prefixes `zoomStart..zoomStop` in order and returns whether all were scheduled; at `zoomStop == Integer.MAX_VALUE` it schedules nothing and returns false. |
| S3BlobStore.ScheduleZoomLevels | geowebcache/s3storage/src/main/java/org/geowebcache/s3/S3BlobStore.java:290-297 | When the level bound and the expected count agree, the result meets the level-scheduling reference behaviour. An empty level range with a non-zero expectation returns false with no effect. |
| S3BlobStore.IntRangeArithmetic | geowebcache/s3storage/src/main/java/org/geowebcache/s3/S3BlobStore.java:291-297 | Below `Integer.MAX_VALUE` the `int` bound and count are exact. At `Integer.MAX_VALUE`, `zoomStop + 1` wraps to `Integer.MIN_VALUE` and the expected count is non-zero. |
| ClientValidation.FailureMessage | geowebcache/s3storage/src/main/java/org/geowebcache/s3/S3BlobStore.java:144-167 | A service error's message starts with the failed probe's own prefix, so it names that probe: it starts with the policy probe's prefix exactly when the policy probe failed, and with the ACL probe's prefix exactly when the ACL probe failed. Any other exception keeps its message, and a `null` message reads as `null`. |
| ClientValidation.MessagesWhenAllFail | geowebcache/s3storage/src/main/java/org/geowebcache/s3/S3BlobStore.java:118-128 | When every probe fails, the gathered messages are one per probe, in probe order. |
| ClientValidation.BothFailMessage | geowebcache/s3storage/src/main/java/org/geowebcache/s3/S3BlobStore.java:115-128 | With both of the store's probes failing, the text is the policy probe's message, a newline, and the ACL probe's message. |
| ClientValidation.ValidateClient | geowebcache/s3storage/src/main/java/org/geowebcache/s3/S3BlobStore.java:115-133 | Probes run in order, and the run stops right after the first success. Validation fails exactly when no probe succeeds. The failure message is the fixed header followed by one message per probe, in probe order, joined by newlines. |

## Left out

- The asynchronous deletion ledger, its executor and the bulk listing and
  deletion of a scheduled prefix live in `S3Ops`, which is not part of this
  model. `scheduleAsyncDelete`, `prefixExists` and `deleteObject` are
  oracles of the `Store`.
- AWS SDK calls are foreign I/O: the policy and ACL requests, building
  `PutObjectRequest`, the canned ACL, `destroy` and shutdown. The probes are
  reduced to their outcomes.
- `toByteArray` and `get` are stream plumbing.
- The `Properties` metadata get and put, `getParameters` and
  `getParametersMapping` are thin passthroughs over the store.
- `rename`, `layerExists`, `clear`, `addListener` and `removeListener` sit
  outside the modelled decisions.
- The constructor's suitability check (`CompositeBlobStore.checkSuitability`)
  is not part of this model.
- `TMSKeyBuilder` is an abstract `KeyLayout`.
  `forParameters` returns a `Set`, whose iteration order is modelled as a
  given sequence. That sequence is not required to be free of repeats, so
  the model also admits layouts the Java `Set` cannot produce; a repeated
  prefix would be scheduled twice.
- `MimeType.createFromFormat` is a function from format to an optional MIME
  type.
- Listener fan-out is one `Notify` effect per notification.
- Listeners are assumed not to change during a call: `put` reads
  `listeners.isEmpty()` twice (:211 and :231), and the model reads it once
  as `hasListeners`. A listener added between the two reads, which would make
  the Java send `tileStored` for a tile that already existed, cannot be
  expressed. Concurrency in general is outside this model.
- `BoundsFilter.Predicate`: the tile-key pattern and its `Long.parseLong`
  calls are one oracle from key to coordinates. A coordinate overflow there
  (a `NumberFormatException` in the source) is not distinguished from a key
  that does not match.
- `BoundsFilter.FromArray`: the array is required to hold at least four
  entries; a shorter array makes the Java constructor throw
  `ArrayIndexOutOfBoundsException`, which is not modelled.
- `S3BlobStore.Put`, `S3BlobStore.DeleteTile`, `S3BlobStore.DeleteLayer`: an
  exception thrown by `putObject`, `putProperties` or `deleteObject` itself
  is not modelled; those store calls are assumed to return.
- `S3BlobStore.Put`: the `checkNotNull` guards on the blob and format are not
  modelled; neither can be absent in the datatypes. The same holds for the
  `checkNotNull` guards of the coarse deletes and for the tile-range guard of
  `delete(TileRange)`.
- `S3BlobStore.DeleteTile`: a store deletion that fails without throwing is
  not modelled. A logged `DeleteObject` always removes the key, and with
  listeners the ignored answer of `deleteObject` is taken as success. Without
  listeners the call returns the store's answer as given; it agrees with the
  listener path when that answer says whether the object existed
  (`DeleteTileListenersAgree`).
- `BlobStore.Apply`: the object map tracks tile objects only. Properties
  documents written by `putParametersMetadata` are logged as effects but
  not stored.
- `Decimal.LongToString`: `%d` under a locale with non-ASCII digits is not
  modelled; the text is the ASCII form `Long.toString` writes.
- Logging calls are not modelled.

=== FILE: blob_store.dfy ===
/**
  What the S3 blob store facade works with: tiles and tile ranges, the object
  store and the asynchronous-deletion scheduler it calls (as oracles), the
  key layout it builds keys with, and the log of effects and listener
  notifications each facade call produces.
 */
module BlobStore {
  import opened Primitives
  import opened BoundsFilter

  /** Everything the key layout needs to place one tile. */
  datatype TileAddress = TileAddress(
    layerName: string,
    gridSetId: string,
    blobFormat: string,
    parametersId: string,
    x: Long, y: Long, z: Long)

  /** Tile contents: a byte array, so at most `Integer.MAX_VALUE` long. */
  type Blob = b: seq<bv8> | |b| <= INT_MAX

  /** A `TileObject`: a tile address, its request parameters, its contents and its recorded size. */
  datatype TileObject = TileObject(
    address: TileAddress,
    parameters: Option<map<string, string>>,
    blob: Blob,
    blobSize: Int)

  /** A `TileRange`: zoom levels `[zoomStart, zoomStop]`, each with its own rectangle of tile coordinates. */
  datatype TileRange = TileRange(
    layerName: string,
    gridSetId: string,
    zoomStart: Int,
    zoomStop: Int,
    rangeBounds: Int -> BoundArray)

  /** The object metadata the facade reads: the stored content length. */
  datatype ObjectMetadata = ObjectMetadata(contentLength: Long)

  /**
    What `scheduleAsyncDelete` does: it returns whether the prefix had
    content, or throws a checked `GeoWebCacheException`, or an unchecked
    exception.
   */
  datatype ScheduleReply = Scheduled(prefixExisted: bool) | GeoWebCacheError | RuntimeError

  /**
    The object store as the facade sees it. `objects` answers metadata
    lookups for object keys; the other fields are oracles for the
    operations whose implementation lies outside the facade. A logged
    object deletion always removes the object (see `Apply`); `deleteObject`
    is only the boolean the store answers with.
   */
  datatype Store = Store(
    objects: map<string, ObjectMetadata>,
    prefixExists: string -> bool,
    scheduleAsyncDelete: string -> ScheduleReply,
    deleteObject: string -> bool)
  {
    /** `getObjectMetadata`: `null` for a missing object. */
    function Metadata(key: string): Option<ObjectMetadata> {
      if key in objects then Some(objects[key]) else None
    }

    /** The store's answer to deleting `key` says whether the object existed. */
    predicate ReportsExistence(key: string) {
      deleteObject(key) == (key in objects)
    }
  }

  /** The key layout: deterministic object keys and prefixes for each level of the keyspace. */
  datatype KeyLayout = KeyLayout(
    forTile: TileAddress -> string,
    coordinatesPrefix: TileRange -> string,
    forZoomLevel: (TileRange, Int) -> string,
    layerMetadata: string -> string,
    forLayer: string -> string,
    forGridset: (string, string) -> string,
    forParameters: (string, string) -> seq<string>,
    parametersMetadata: (string, string) -> string)

  /** The events a blob store listener receives. */
  datatype Notification =
    | TileStored(tile: TileObject)
    | TileUpdated(tile: TileObject, oldSize: Long)
    | TileDeleted(tile: TileObject)
    | LayerDeleted(layerName: string)
    | GridSubsetDeleted(layerName: string, gridSetId: string)
    | ParametersDeleted(layerName: string, parametersId: string)

  /** One externally visible step of a facade call, in the order it happens. */
  datatype Effect =
    | PutObject(key: string, contentType: string, content: Blob)
    | PutProperties(key: string, properties: map<string, string>)
    | DeleteObject(key: string)
    | ScheduleDelete(prefix: string)
    | Notify(event: Notification)

  /** The exceptions a facade call can end with. */
  datatype Exception =
    | IllegalArgument(message: string)
    | GeoWebCacheException
    | MimeException
    | RuntimeException(cause: Option<Exception>)

  datatype Outcome<T> = Returned(value: T) | Threw(exception: Exception)

  /** A facade call's result together with everything it did on the way. */
  datatype Trace<T> = Trace(outcome: Outcome<T>, effects: seq<Effect>)

  /** The parts of a log that `part` picks out of each effect, in order. */
  function Project<T>(effects: seq<Effect>, part: Effect -> seq<T>): seq<T> {
    if |effects| == 0 then [] else part(effects[0]) + Project(effects[1..], part)
  }

  /** The prefixes handed to the deletion scheduler, in order. */
  function ScheduledPrefixes(effects: seq<Effect>): seq<string> {
    Project(effects, PrefixOf)
  }

  function PrefixOf(e: Effect): seq<string> {
    if e.ScheduleDelete? then [e.prefix] else []
  }

  /** The notifications sent to listeners, in order. */
  function Notifications(effects: seq<Effect>): seq<Notification> {
    Project(effects, EventOf)
  }

  function EventOf(e: Effect): seq<Notification> {
    if e.Notify? then [e.event] else []
  }

  /** The properties documents written, in order. */
  function PropertiesWrites(effects: seq<Effect>): seq<Effect> {
    Project(effects, WriteOf)
  }

  function WriteOf(e: Effect): seq<Effect> {
    if e.PutProperties? then [e] else []
  }

  /** Every projection of a log distributes over concatenation. */
  lemma {:induction false} ProjectAppend<T>(a: seq<Effect>, b: seq<Effect>, part: Effect -> seq<T>)
    ensures Project(a + b, part) == Project(a, part) + Project(b, part)
  {
    if |a| == 0 {
      assert a + b == b;
    } else {
      var t := a[1..];
      assert (a + b)[0] == a[0];
      assert (a + b)[1..] == t + b;
      ProjectAppend(t, b, part);
      calc {
        Project(a + b, part);
        part(a[0]) + Project(t + b, part);
        part(a[0]) + (Project(t, part) + Project(b, part));
        part(a[0]) + Project(t, part) + Project(b, part);
        Project(a, part) + Project(b, part);
      }
    }
  }

  lemma PropertiesAppend(a: seq<Effect>, b: seq<Effect>)
    ensures PropertiesWrites(a + b) == PropertiesWrites(a) + PropertiesWrites(b)
  {
    ProjectAppend(a, b, WriteOf);
  }

  /** Both projections of a log distribute over concatenation. */
  lemma ProjectionsAppend(a: seq<Effect>, b: seq<Effect>)
    ensures ScheduledPrefixes(a + b) == ScheduledPrefixes(a) + ScheduledPrefixes(b)
    ensures Notifications(a + b) == Notifications(a) + Notifications(b)
  {
    ProjectAppend(a, b, PrefixOf);
    ProjectAppend(a, b, EventOf);
  }

  /** A one-effect log projects to that effect's own part. */
  lemma ProjectSingle<T>(e: Effect, part: Effect -> seq<T>)
    ensures Project([e], part) == part(e)
  {
    assert [e][1..] == [];
  }

  lemma ProjectionsSingle(e: Effect)
    ensures ScheduledPrefixes([e]) == if e.ScheduleDelete? then [e.prefix] else []
    ensures Notifications([e]) == if e.Notify? then [e.event] else []
    ensures PropertiesWrites([e]) == if e.PutProperties? then [e] else []
  {
    ProjectSingle(e, PrefixOf);
    ProjectSingle(e, EventOf);
    ProjectSingle(e, WriteOf);
  }

  /** A log of nothing but scheduling steps for the given prefixes, in order. */
  lemma {:induction false} OnlySchedules(effects: seq<Effect>, prefixes: seq<string>)
    requires |effects| <= |prefixes|
    requires forall i :: 0 <= i < |effects| ==> effects[i] == ScheduleDelete(prefixes[i])
    ensures ScheduledPrefixes(effects) == prefixes[..|effects|]
    ensures Notifications(effects) == []
  {
    if |effects| > 0 {
      OnlySchedules(effects[1..], prefixes[1..]);
      assert [prefixes[0]] + prefixes[1..][..|effects| - 1] == prefixes[..|effects|];
    }
  }

  /** The object metadata after one step; properties documents are not tracked. */
  function ApplyOne(objects: map<string, ObjectMetadata>, e: Effect): map<string, ObjectMetadata> {
    match e
    case PutObject(key, _, content) => objects[key := ObjectMetadata(|content|)]
    case DeleteObject(key) => objects - {key}
    case _ => objects
  }

  /** The object metadata after the logged writes and deletions. */
  function Apply(objects: map<string, ObjectMetadata>, effects: seq<Effect>): map<string, ObjectMetadata>
    decreases |effects|
  {
    if |effects| == 0 then objects else Apply(ApplyOne(objects, effects[0]), effects[1..])
  }

  /** Steps that neither write nor delete an object. */
  predicate Inert(effects: seq<Effect>) {
    forall i :: 0 <= i < |effects| ==> !effects[i].PutObject? && !effects[i].DeleteObject?
  }

  lemma InertAppend(a: seq<Effect>, b: seq<Effect>)
    requires Inert(a) && Inert(b)
    ensures Inert(a + b)
  {
    forall i | 0 <= i < |a + b|
      ensures !(a + b)[i].PutObject? && !(a + b)[i].DeleteObject?
    {
      if i < |a| {
        assert (a + b)[i] == a[i];
      } else {
        assert (a + b)[i] == b[i - |a|];
      }
    }
  }

  /** Steps that neither write nor delete an object leave the metadata as it was. */
  lemma {:induction false} ApplyInert(objects: map<string, ObjectMetadata>, rest: seq<Effect>)
    requires Inert(rest)
    ensures Apply(objects, rest) == objects
  {
    if |rest| > 0 {
      ApplyInert(objects, rest[1..]);
    }
  }

  /** One step followed by steps that neither write nor delete an object. */
  lemma ApplyThenInert(objects: map<string, ObjectMetadata>, e: Effect, rest: seq<Effect>)
    requires Inert(rest)
    ensures Apply(objects, [e] + rest) == ApplyOne(objects, e)
  {
    assert ([e] + rest)[1..] == rest;
    ApplyInert(ApplyOne(objects, e), rest);
  }

  /** Stored size per key. */
  function Sizes(objects: map<string, ObjectMetadata>): map<string, Long> {
    map key | key in objects :: objects[key].contentLength
  }

  lemma SizesUpdate(objects: map<string, ObjectMetadata>, key: string, m: ObjectMetadata)
    ensures Sizes(objects[key := m]) == Sizes(objects)[key := m.contentLength]
    ensures Sizes(objects - {key}) == Sizes(objects) - {key}
  {
  }

  /**
    How a listener that tracks which tiles exist, and how large they are,
    updates its view on each notification.
   */
  function Observe(layout: KeyLayout, view: map<string, Long>, n: Notification): map<string, Long> {
    match n
    case TileStored(t) => view[layout.forTile(t.address) := |t.blob|]
    case TileUpdated(t, _) => view[layout.forTile(t.address) := |t.blob|]
    case TileDeleted(t) => view - {layout.forTile(t.address)}
    case _ => view
  }

  function ObserveAll(layout: KeyLayout, view: map<string, Long>, ns: seq<Notification>): map<string, Long>
    decreases |ns|
  {
    if |ns| == 0 then view else ObserveAll(layout, Observe(layout, view, ns[0]), ns[1..])
  }

  lemma ObserveOne(layout: KeyLayout, view: map<string, Long>, n: Notification)
    ensures ObserveAll(layout, view, [n]) == Observe(layout, view, n)
  {
    assert [n][1..] == [];
  }

  /**
    A notification agrees with a listener's view: a stored tile is new, an
    updated tile existed with the reported old size, a deleted tile existed
    and reports its size as a Java `int`.
   */
  predicate Consistent(layout: KeyLayout, view: map<string, Long>, n: Notification) {
    match n
    case TileStored(t) => layout.forTile(t.address) !in view
    case TileUpdated(t, oldSize) =>
      layout.forTile(t.address) in view && view[layout.forTile(t.address)] == oldSize
    case TileDeleted(t) =>
      layout.forTile(t.address) in view && t.blobSize == ToInt(view[layout.forTile(t.address)])
    case _ => true
  }
}

=== FILE: bounds_filter.dfy ===
/**
  The `Bounds` value type of the S3 blob store: a tile-coordinate rectangle
  that restricts a prefix deletion to one zoom level's tile range. It is
  written after a zoom-level prefix as `?bounds=minx,miny,maxx,maxy`, read
  back from such a string, and compared with the coordinates encoded in an
  object key.
 */
module BoundsFilter {
  import opened Primitives
  import opened Decimal
  import opened BoundsGrammar

  /** A rectangle of tile coordinates, edges included. */
  datatype Bounds = Bounds(minX: Long, minY: Long, maxX: Long, maxY: Long) {
    /** Every `Bounds` the constructor builds has its corners in this order. */
    predicate Normalized() {
      minX <= maxX && minY <= maxY
    }

    predicate NonNegative() {
      minX >= 0 && minY >= 0 && maxX >= 0 && maxY >= 0
    }
  }

  /** The `long[]` handed to the constructor: two corners, `{x0, y0, x1, y1, ...}`. */
  type BoundArray = a: seq<Long> | |a| >= 4 witness [0, 0, 0, 0]

  function Min(a: Long, b: Long): Long {
    if a <= b then a else b
  }

  function Max(a: Long, b: Long): Long {
    if a <= b then b else a
  }

  /** The constructor: the rectangle spanned by two opposite corners given in any order. */
  function FromArray(bound: BoundArray): (b: Bounds)
    ensures b.Normalized()
    ensures multiset{b.minX, b.maxX} == multiset{bound[0], bound[2]}
    ensures multiset{b.minY, b.maxY} == multiset{bound[1], bound[3]}
  {
    Bounds(Min(bound[0], bound[2]), Min(bound[1], bound[3]), Max(bound[0], bound[2]), Max(bound[1], bound[3]))
  }

  /** The four coordinates as written by `toString`. */
  function Fields(b: Bounds): string {
    LongToString(b.minX) + "," + LongToString(b.minY) + "," + LongToString(b.maxX) + "," + LongToString(b.maxY)
  }

  /** `toString`: `bounds=minx,miny,maxx,maxy`. */
  function Format(b: Bounds): string {
    "bounds=" + Fields(b)
  }

  /**
    What `toString` writes: non-negative coordinates come out as the four
    digit runs the pattern reads; a negative one shows its sign; no slash or
    question mark is ever written.
   */
  lemma FormatShape(b: Bounds)
    ensures b.NonNegative() ==> Format(b) == "bounds=" + Join(WrittenRuns(b))
    ensures !b.NonNegative() ==> '-' in Format(b)
    ensures Unmarked(Format(b))
  {
    FieldsAlphabet(b);
    LabelKeepsAlphabet(Fields(b));
    if b.NonNegative() {
      FieldsAreJoinedRuns(b);
    } else {
      NegativeFieldShowsSign(b);
      LabelKeepsSign(Fields(b));
    }
  }

  /** Text holding neither of the characters that delimit the pattern's groups. */
  predicate Unmarked(s: string) {
    forall i :: 0 <= i < |s| ==> s[i] != '/' && s[i] != '?'
  }

  /** Number text behind the `bounds=` label holds no slash or question mark. */
  lemma LabelKeepsAlphabet(f: string)
    requires IsNumberText(f)
    ensures Unmarked("bounds=" + f)
  {
    var s := "bounds=" + f;
    forall i | 0 <= i < |s|
      ensures s[i] != '/' && s[i] != '?'
    {
      if i >= 7 {
        assert s[i] == f[i - 7];
      }
    }
  }

  lemma LabelKeepsSign(f: string)
    requires '-' in f
    ensures '-' in "bounds=" + f
  {
    var k :| 0 <= k < |f| && f[k] == '-';
    assert ("bounds=" + f)[k + 7] == '-';
  }

  /** The prefix handed to the deletion scheduler, `format("%s?%s", zoomPath, bounds)`. */
  function Suffixed(zoomPath: string, b: Bounds): string {
    zoomPath + "?" + Format(b)
  }

  /**
    A written prefix has the pattern's suffix shape: for a prefix-group
    zoom path and non-negative coordinates the whole string is a match whose
    groups are the path and the digit runs written for the coordinates.
   */
  lemma SuffixedDenotes(zoomPath: string, b: Bounds)
    requires IsPrefixGroup(zoomPath) && b.NonNegative()
    ensures Denotes(Suffixed(zoomPath, b), Decomposition(zoomPath, WrittenRuns(b)))
  {
    FormatShape(b);
    MarkedRuns(zoomPath, Join(WrittenRuns(b)));
  }

  /** `?` and the `bounds=` label together make the marker. */
  lemma MarkedRuns(p: string, j: string)
    ensures p + "?" + ("bounds=" + j) == p + Marker + j
  {
    assert "?" + ("bounds=" + j) == Marker + j;
    Regroup(p, "?", "bounds=" + j);
    Regroup(p, Marker, j);
  }

  /**
    What `createBounds` yields: `Optional.empty()`, a `Bounds`, or the
    `NumberFormatException` that `Long.parseLong` throws on a digit run too
    large for a `long`.
   */
  datatype Parsed = NoBounds | Parsed(bounds: Bounds) | NumberFormatError

  /** Each of the four runs' values fits in a `long`. */
  predicate FitLongs(runs: seq<string>)
    requires |runs| == 4 && AreDigitRuns(runs)
  {
    && Value(runs[0]) <= LONG_MAX && Value(runs[1]) <= LONG_MAX
    && Value(runs[2]) <= LONG_MAX && Value(runs[3]) <= LONG_MAX
  }

  /** `createBounds`: the rectangle a bounded prefix carries, if it carries one. */
  function CreateBounds(s: string): (r: Parsed)
    ensures r.Parsed? ==> r.bounds.Normalized() && r.bounds.NonNegative()
  {
    match Match(s)
    case None => NoBounds
    case Some(d) => ParsedRuns(d.runs)
  }

  /**
    The four matched digit runs read with `Long.parseLong`, as x0, y0, x1, y1,
    then handed to the constructor.
   */
  function ParsedRuns(runs: seq<string>): (r: Parsed)
    requires |runs| == 4 && AreDigitRuns(runs)
    ensures r != NoBounds
    ensures r.NumberFormatError? <==> !FitLongs(runs)
    ensures r.Parsed? ==> r.bounds.Normalized() && r.bounds.NonNegative()
    ensures r.Parsed? ==> multiset{r.bounds.minX as int, r.bounds.maxX as int} == multiset{Value(runs[0]), Value(runs[2])}
    ensures r.Parsed? ==> multiset{r.bounds.minY as int, r.bounds.maxY as int} == multiset{Value(runs[1]), Value(runs[3])}
  {
    var x0, y0, x1, y1 := ParseLong(runs[0]), ParseLong(runs[1]), ParseLong(runs[2]), ParseLong(runs[3]);
    if x0.Some? && y0.Some? && x1.Some? && y1.Some? then Parsed(FromArray([x0.value, y0.value, x1.value, y1.value]))
    else NumberFormatError
  }

  /** `prefixWithoutBounds`: the literal prefix to list objects under. */
  function PrefixWithoutBounds(s: string): (r: string)
    ensures r <= s
    ensures r != s ==> IsPrefixGroup(r)
  {
    match Match(s)
    case None => s
    case Some(d) => d.prefix
  }

  /** Inclusive test on all four edges. */
  function Contains(b: Bounds, x: Long, y: Long): bool {
    b.minX <= x <= b.maxX && b.minY <= y <= b.maxY
  }

  /**
    `predicate`: whether an object key names a tile inside the rectangle.
    `coordinatesOf` stands for the key layout's tile-key pattern and its
    coordinate groups; keys it does not recognise never match.
   */
  function Predicate(b: Bounds, coordinatesOf: string -> Option<(Long, Long)>, key: string): (r: bool)
    ensures coordinatesOf(key).None? ==> !r
    ensures coordinatesOf(key).Some? ==> (r <==> Contains(b, coordinatesOf(key).value.0, coordinatesOf(key).value.1))
  {
    match coordinatesOf(key)
    case None => false
    case Some((x, y)) => Contains(b, x, y)
  }

  /** `v` lies on the segment between `a` and `c`, whichever of the two is smaller. */
  predicate Between(v: int, a: int, c: int) {
    (a <= v <= c) || (c <= v <= a)
  }

  /**
    The constructor does not depend on which corners it is given: any two
    arrays holding the same x pair and the same y pair build the same rectangle.
   */
  lemma CornerOrderIrrelevant(a: BoundArray, a': BoundArray)
    requires multiset{a[0], a[2]} == multiset{a'[0], a'[2]}
    requires multiset{a[1], a[3]} == multiset{a'[1], a'[3]}
    ensures FromArray(a) == FromArray(a')
  {
    PairOfMultiset(a[0], a[2], a'[0], a'[2]);
    PairOfMultiset(a[1], a[3], a'[1], a'[3]);
  }

  lemma PairOfMultiset(u: int, v: int, u': int, v': int)
    requires multiset{u, v} == multiset{u', v'}
    ensures (u == u' && v == v') || (u == v' && v == u')
  {
    assert u in multiset{u', v'};
    if u == u' {
      assert multiset{u, v} - multiset{u} == multiset{v};
      assert multiset{u', v'} - multiset{u'} == multiset{v'};
    } else {
      assert u == v';
      assert multiset{u, v} - multiset{u} == multiset{v};
      assert multiset{u', v'} - multiset{v'} == multiset{u'};
    }
  }

  /** Rebuilding a rectangle from its own corners gives it back exactly when it is normalized. */
  lemma FromOwnCorners(b: Bounds)
    ensures FromArray([b.minX, b.minY, b.maxX, b.maxY]) == b <==> b.Normalized()
  {
  }

  /**
    The predicate accepts exactly the keys with coordinates on or between the
    two corners the rectangle was built from, in both axes.
   */
  lemma PredicateSpansCorners(bound: BoundArray, coordinatesOf: string -> Option<(Long, Long)>, key: string)
    ensures Predicate(FromArray(bound), coordinatesOf, key) <==>
      && coordinatesOf(key).Some?
      && Between(coordinatesOf(key).value.0, bound[0], bound[2])
      && Between(coordinatesOf(key).value.1, bound[1], bound[3])
  {
  }

  /**
    Parsing is all-or-nothing: a string either matches the grammar, and then
    loses exactly its suffix and yields its rectangle (or the overflow
    error), or it does not, and then it yields no rectangle and keeps its
    full text as prefix.
   */
  lemma AllOrNothing(s: string)
    ensures CreateBounds(s) == NoBounds <==> PrefixWithoutBounds(s) == s
    ensures CreateBounds(s) == NoBounds <==> forall d :: !Denotes(s, d)
    ensures forall d :: Denotes(s, d) ==>
      && PrefixWithoutBounds(s) == d.prefix
      && CreateBounds(s) == ParsedRuns(d.runs)
  {
    forall d | Denotes(s, d)
      ensures PrefixWithoutBounds(s) == d.prefix && CreateBounds(s) == ParsedRuns(d.runs)
    {
      MatchComplete(s, d);
    }
    if CreateBounds(s) == NoBounds {
      forall d ensures !Denotes(s, d) {
        MatchExactly(s, d);
      }
    }
  }

  /**
    Round trip: the rectangle written after a zoom path is read back exactly,
    and the zoom path is recovered, precisely when the path is a possible
    prefix group (it ends in `/` and holds no line terminator) and no
    coordinate is negative. Otherwise the string does not match at all.
   */
  lemma RoundTrip(p: string, b: Bounds)
    requires b.Normalized()
    ensures CreateBounds(Suffixed(p, b)) == (if IsPrefixGroup(p) && b.NonNegative() then Parsed(b) else NoBounds)
    ensures PrefixWithoutBounds(Suffixed(p, b)) == (if IsPrefixGroup(p) && b.NonNegative() then p else Suffixed(p, b))
  {
    if IsPrefixGroup(p) && b.NonNegative() {
      RoundTripValid(p, b);
    } else {
      match Match(Suffixed(p, b))
      case None =>
      case Some(d) =>
        OnlyValidSuffixedMatch(p, b, d);
        assert false;
    }
  }

  lemma RoundTripValid(p: string, b: Bounds)
    requires b.Normalized() && b.NonNegative() && IsPrefixGroup(p)
    ensures Match(Suffixed(p, b)) == Some(Decomposition(p, WrittenRuns(b)))
    ensures CreateBounds(Suffixed(p, b)) == Parsed(b)
  {
    var s := Suffixed(p, b);
    var runs := WrittenRuns(b);
    FieldsAreJoinedRuns(b);
    assert s == p + Marker + Join(runs);
    MatchComplete(s, Decomposition(p, runs));
    ValueOfNatToString(b.minX);
    ValueOfNatToString(b.minY);
    ValueOfNatToString(b.maxX);
    ValueOfNatToString(b.maxY);
    assert ParseLong(runs[0]) == Some(b.minX);
    assert ParseLong(runs[1]) == Some(b.minY);
    assert ParseLong(runs[2]) == Some(b.maxX);
    assert ParseLong(runs[3]) == Some(b.maxY);
  }

  /** The digit runs `toString` writes for non-negative coordinates. */
  function WrittenRuns(b: Bounds): (runs: seq<string>)
    requires b.NonNegative()
    ensures |runs| == 4 && AreDigitRuns(runs)
  {
    [NatToString(b.minX), NatToString(b.minY), NatToString(b.maxX), NatToString(b.maxY)]
  }

  /** For non-negative coordinates the written fields are the four runs, joined. */
  lemma FieldsAreJoinedRuns(b: Bounds)
    requires b.NonNegative()
    ensures Fields(b) == Join(WrittenRuns(b))
  {
    var runs := WrittenRuns(b);
    var r0, r1, r2, r3 := runs[0], runs[1], runs[2], runs[3];
    assert LongToString(b.minX) == r0;
    assert LongToString(b.minY) == r1;
    assert LongToString(b.maxX) == r2;
    assert LongToString(b.maxY) == r3;
    assert runs[1..][1..][1..] == [r3];
    assert Join(runs[1..][1..]) == r2 + "," + r3;
    assert Join(runs[1..]) == r1 + "," + (r2 + "," + r3);
    assert Join(runs) == r0 + "," + (r1 + "," + (r2 + "," + r3));
    assert Fields(b) == r0 + "," + r1 + "," + r2 + "," + r3;
  }

  /** A negative coordinate puts a minus sign into the written fields. */
  lemma NegativeFieldShowsSign(b: Bounds)
    requires !b.NonNegative()
    ensures '-' in Fields(b)
  {
    if b.minX < 0 {
      assert '-' in LongToString(b.minX);
    } else if b.minY < 0 {
      assert '-' in LongToString(b.minY);
    } else if b.maxX < 0 {
      assert '-' in LongToString(b.maxX);
    } else {
      assert '-' in LongToString(b.maxY);
    }
  }

  /** Text made only of digits, commas and minus signs. */
  predicate IsNumberText(s: string) {
    forall i :: 0 <= i < |s| ==> IsDigit(s[i]) || s[i] == ',' || s[i] == '-'
  }

  lemma NumberTextConcat(a: string, b: string)
    requires IsNumberText(a) && IsNumberText(b)
    ensures IsNumberText(a + b)
  {
  }

  lemma LongToStringIsNumberText(v: Long)
    ensures IsNumberText(LongToString(v))
  {
    var s := LongToString(v);
    if v < 0 {
      assert forall i :: 1 <= i < |s| ==> s[i] == s[1..][i - 1];
    }
  }

  /** The written fields hold digits, commas and minus signs only. */
  lemma FieldsAlphabet(b: Bounds)
    ensures IsNumberText(Fields(b))
  {
    LongToStringIsNumberText(b.minX);
    LongToStringIsNumberText(b.minY);
    LongToStringIsNumberText(b.maxX);
    LongToStringIsNumberText(b.maxY);
    NumberTextConcat(LongToString(b.minX), ",");
    NumberTextConcat(LongToString(b.minX) + ",", LongToString(b.minY));
    NumberTextConcat(LongToString(b.minX) + "," + LongToString(b.minY), ",");
    NumberTextConcat(LongToString(b.minX) + "," + LongToString(b.minY) + ",", LongToString(b.maxX));
    NumberTextConcat(LongToString(b.minX) + "," + LongToString(b.minY) + "," + LongToString(b.maxX), ",");
    NumberTextConcat(LongToString(b.minX) + "," + LongToString(b.minY) + "," + LongToString(b.maxX) + ",", LongToString(b.maxY));
  }

  predicate NoSlash(s: string) {
    forall i :: 0 <= i < |s| ==> s[i] != '/'
  }

  /** No `?` past the first character. */
  predicate QuestionMarkFirstOnly(s: string) {
    forall i :: 1 <= i < |s| ==> s[i] != '?'
  }

  /** Where two cuts of one string differ, each tail's first character lies in the other part. */
  lemma CutChars(p: string, w: string, q: string, a: string)
    requires p + w == q + a
    requires |w| > 0 && |q| > 0
    ensures |q| < |p| ==> a[|p| - |q|] == w[0]
    ensures |q| > |p| ==> w[|q| - 1 - |p|] == q[|q| - 1]
  {
    var s := p + w;
    if |q| < |p| {
      assert s[|p|] == w[0];
    }
    if |q| > |p| {
      assert s[|q| - 1] == q[|q| - 1];
    }
  }

  /**
    Two ways of cutting one string, each after a slash-ended head: when the
    first tail starts with the only `?` it holds and has no slash, and the
    second tail has no `?` after its first character, the cuts coincide.
   */
  lemma SameCut(p: string, w: string, q: string, a: string)
    requires p + w == q + a
    requires |q| > 0 && q[|q| - 1] == '/'
    requires |w| > 0 && w[0] == '?' && NoSlash(w)
    requires |a| > 0 && QuestionMarkFirstOnly(a)
    ensures p == q && w == a
  {
    CutChars(p, w, q, a);
    if |q| != |p| {
      assert false;
    }
    assert p == (p + w)[..|p|] == q;
  }

  /** What `toString` writes after the `?` holds no slash. */
  lemma WrittenTail(b: Bounds)
    ensures NoSlash("?" + Format(b))
  {
    FormatShape(b);
    var w := "?" + Format(b);
    assert forall i :: 1 <= i < |w| ==> w[i] == Format(b)[i - 1];
  }

  /** After the marker's own `?`, a match's tail holds no other. */
  lemma MatchedTail(runs: seq<string>)
    requires |runs| > 0 && AreDigitRuns(runs)
    ensures QuestionMarkFirstOnly(Marker + Join(runs))
  {
    var a := Marker + Join(runs);
    JoinAlphabet(runs);
    assert forall i :: |Marker| <= i < |a| ==> a[i] == Join(runs)[i - |Marker|];
  }

  /** A match of a written rectangle reads back the written coordinates text. */
  lemma SameFields(b: Bounds, runs: seq<string>)
    requires |runs| > 0
    requires Marker + Join(runs) == "?" + Format(b)
    ensures Join(runs) == Fields(b)
  {
    Regroup("?", "bounds=", Fields(b));
    assert "?" + Format(b) == Marker + Fields(b);
    CancelPrefix(Marker, Join(runs), Fields(b));
  }

  lemma CancelPrefix(x: string, y: string, z: string)
    requires x + y == x + z
    ensures y == z
  {
    assert y == (x + y)[|x|..];
    assert z == (x + z)[|x|..];
  }

  /** Coordinates written as plain digit runs are non-negative. */
  lemma DigitFieldsNonNegative(b: Bounds, runs: seq<string>)
    requires |runs| > 0 && AreDigitRuns(runs) && Join(runs) == Fields(b)
    ensures b.NonNegative()
  {
    JoinAlphabet(runs);
    if !b.NonNegative() {
      NegativeFieldShowsSign(b);
      assert false;
    }
  }

  /** A match of a written rectangle cuts it twice: after the zoom path, and after the prefix group. */
  lemma SuffixedCuts(p: string, b: Bounds, d: Decomposition)
    requires Denotes(Suffixed(p, b), d)
    ensures p + ("?" + Format(b)) == d.prefix + (Marker + Join(d.runs))
  {
    Regroup(p, "?", Format(b));
    Regroup(d.prefix, Marker, Join(d.runs));
  }

  lemma Regroup(x: string, y: string, z: string)
    ensures x + y + z == x + (y + z)
  {
  }

  /** The only way a written rectangle can match is with its own zoom path and non-negative coordinates. */
  lemma OnlyValidSuffixedMatch(p: string, b: Bounds, d: Decomposition)
    requires Denotes(Suffixed(p, b), d)
    ensures d.prefix == p && IsPrefixGroup(p) && b.NonNegative()
  {
    var after := Marker + Join(d.runs);
    var written := "?" + Format(b);
    WrittenTail(b);
    MatchedTail(d.runs);
    SuffixedCuts(p, b, d);
    SameCut(p, written, d.prefix, after);
    SameFields(b, d.runs);
    DigitFieldsNonNegative(b, d.runs);
  }
}

=== FILE: bounds_grammar.dfy ===
/**
  The text form of a bounded deletion prefix: a prefix group of any text
  that ends in `/`, then `?bounds=`, then four digit runs separated by
  commas, with the whole string matched. `Denotes` says declaratively what
  it means for a string to match with given groups; `Match` finds the
  groups by scanning, and the two are proved to agree on every string.
 */
module BoundsGrammar {
  import opened Primitives
  import opened Decimal

  /** The characters Java's `.` does not match when DOTALL is off. */
  predicate IsLineTerminator(c: char) {
    c == '\n' || c == '\r' || c == '\U{0085}' || c == '\U{2028}' || c == '\U{2029}'
  }

  predicate NoLineTerminator(s: string) {
    forall i :: 0 <= i < |s| ==> !IsLineTerminator(s[i])
  }

  /** What separates the literal prefix from the four coordinates. */
  const Marker: string := "?bounds="

  /** A string the prefix group can capture: a line without terminators, then a slash. */
  predicate IsPrefixGroup(p: string) {
    |p| > 0 && p[|p| - 1] == '/' && NoLineTerminator(p[..|p| - 1])
  }

  predicate AreDigitRuns(runs: seq<string>) {
    forall i :: 0 <= i < |runs| ==> IsDigitRun(runs[i])
  }

  /** The runs separated by commas. */
  function Join(runs: seq<string>): string
    requires |runs| > 0
  {
    if |runs| == 1 then runs[0] else runs[0] + "," + Join(runs[1..])
  }

  /** The four coordinate groups and the prefix group of a match. */
  datatype Decomposition = Decomposition(prefix: string, runs: seq<string>)

  /** Reference definition: `s` matches the pattern with exactly these groups. */
  predicate Denotes(s: string, d: Decomposition) {
    && IsPrefixGroup(d.prefix)
    && |d.runs| == 4
    && AreDigitRuns(d.runs)
    && s == d.prefix + Marker + Join(d.runs)
  }

  /** Index of the last occurrence of `c` in `s`. */
  function LastIndexOf(s: string, c: char): (r: Option<nat>)
    ensures r.None? ==> forall i :: 0 <= i < |s| ==> s[i] != c
    ensures r.Some? ==> r.value < |s| && s[r.value] == c
    ensures r.Some? ==> forall i :: r.value < i < |s| ==> s[i] != c
  {
    if |s| == 0 then None
    else if s[|s| - 1] == c then Some(|s| - 1)
    else LastIndexOf(s[..|s| - 1], c)
  }

  /** Length of the longest run of digits at the start of `s`. */
  function SpanDigits(s: string): (n: nat)
    ensures n <= |s|
    ensures forall i :: 0 <= i < n ==> IsDigit(s[i])
    ensures n < |s| ==> !IsDigit(s[n])
  {
    if |s| == 0 || !IsDigit(s[0]) then 0 else 1 + SpanDigits(s[1..])
  }

  /** Splits all of `s` into exactly `count` comma-separated digit runs, if it can. */
  function Runs(s: string, count: nat): (r: Option<seq<string>>)
    requires count >= 1
    ensures r.Some? ==> |r.value| == count && AreDigitRuns(r.value) && Join(r.value) == s
    decreases count
  {
    var n := SpanDigits(s);
    if n == 0 then None
    else if count == 1 then (if n == |s| then Some([s]) else None)
    else if n < |s| && s[n] == ',' then
      match Runs(s[n + 1..], count - 1)
      case None => None
      case Some(rest) =>
        assert ([s[..n]] + rest)[1..] == rest;
        assert s[..n] + "," + s[n + 1..] == s;
        Some([s[..n]] + rest)
    else None
  }

  /**
    The matcher: the prefix group ends at the last `/` (nothing after the
    prefix group may contain one), and everything after it must be the
    marker followed by four digit runs.
   */
  function Match(s: string): (r: Option<Decomposition>)
    ensures r.Some? ==> Denotes(s, r.value)
  {
    match LastIndexOf(s, '/')
    case None => None
    case Some(k) =>
      var tail := s[k + 1..];
      if NoLineTerminator(s[..k]) && Marker <= tail then
        match Runs(tail[|Marker|..], 4)
        case None => None
        case Some(runs) =>
          MatchedDenotes(s, k, runs);
          Some(Decomposition(s[..k + 1], runs))
      else None
  }

  /** The groups `Match` reads off a string are a decomposition the grammar admits. */
  lemma MatchedDenotes(s: string, k: nat, runs: seq<string>)
    requires k < |s| && s[k] == '/' && NoLineTerminator(s[..k])
    requires Marker <= s[k + 1..]
    requires |runs| == 4 && AreDigitRuns(runs) && Join(runs) == s[k + 1..][|Marker|..]
    ensures Denotes(s, Decomposition(s[..k + 1], runs))
  {
    var p := s[..k + 1];
    var tail := s[k + 1..];
    assert p[..k] == s[..k];
    assert tail == Marker + tail[|Marker|..];
    assert s == p + tail;
  }

  /** Joined digit runs hold nothing but digits and commas. */
  lemma {:induction false} JoinAlphabet(runs: seq<string>)
    requires |runs| > 0 && AreDigitRuns(runs)
    ensures forall i :: 0 <= i < |Join(runs)| ==> IsDigit(Join(runs)[i]) || Join(runs)[i] == ','
  {
    if |runs| > 1 {
      JoinAlphabet(runs[1..]);
    }
  }

  /** Splitting joined digit runs gives the runs back. */
  lemma {:induction false} RunsOfJoin(runs: seq<string>)
    requires |runs| >= 1 && AreDigitRuns(runs)
    ensures Runs(Join(runs), |runs|) == Some(runs)
  {
    var s := Join(runs);
    var n := SpanDigits(s);
    if |runs| == 1 {
      assert [s] == runs;
    } else {
      var first := runs[0];
      assert s == first + "," + Join(runs[1..]);
      assert s[|first|] == ',';
      assert n == |first|;
      assert s[..n] == first;
      assert s[n + 1..] == Join(runs[1..]);
      RunsOfJoin(runs[1..]);
      assert [first] + runs[1..] == runs;
    }
  }

  /** Every decomposition the grammar admits is the one `Match` finds. */
  lemma MatchComplete(s: string, d: Decomposition)
    requires Denotes(s, d)
    ensures Match(s) == Some(d)
  {
    var k := |d.prefix| - 1;
    var after := Marker + Join(d.runs);
    assert s == d.prefix + after;
    NoSlashAfterPrefix(d.runs);
    LastSlashAt(s, d.prefix, after);
    assert s[..k] == d.prefix[..k];
    assert s[k + 1..] == after;
    assert after[|Marker|..] == Join(d.runs);
    RunsOfJoin(d.runs);
    assert s[..k + 1] == d.prefix;
  }

  /** What follows the prefix group never holds a slash. */
  lemma NoSlashAfterPrefix(runs: seq<string>)
    requires |runs| > 0 && AreDigitRuns(runs)
    ensures forall i :: 0 <= i < |Marker + Join(runs)| ==> (Marker + Join(runs))[i] != '/'
  {
    JoinAlphabet(runs);
  }

  /** The last slash of `p + t` is the last character of `p` when `t` has none. */
  lemma LastSlashAt(s: string, p: string, t: string)
    requires s == p + t && |p| > 0 && p[|p| - 1] == '/'
    requires forall i :: 0 <= i < |t| ==> t[i] != '/'
    ensures LastIndexOf(s, '/') == Some(|p| - 1)
  {
    var k := |p| - 1;
    assert s[k] == '/';
    assert forall i :: k < i < |s| ==> s[i] == t[i - |p|];
    var r := LastIndexOf(s, '/');
    assert r.Some?;
  }

  /**
    The matcher and the grammar agree on every string and decomposition: a
    string either matches in exactly one way or not at all.
   */
  lemma MatchExactly(s: string, d: Decomposition)
    ensures Match(s) == Some(d) <==> Denotes(s, d)
  {
    if Denotes(s, d) {
      MatchComplete(s, d);
    }
  }

  /** No string matches the pattern in two different ways. */
  lemma Unambiguous(s: string, d1: Decomposition, d2: Decomposition)
    requires Denotes(s, d1) && Denotes(s, d2)
    ensures d1 == d2
  {
    MatchComplete(s, d1);
    MatchComplete(s, d2);
  }
}

=== FILE: client_validation.dfy ===
/**
  Connection validation when the blob store starts: the configured checkers
  are tried in order until one succeeds; when none does, startup fails with
  one message gathering every checker's failure.
 */
module ClientValidation {
  import opened Primitives

  /** The two probes of a bucket: reading its policy, and listing its ACL. */
  datatype Checker = BucketPolicy | AccessControlList

  const HEADER: string := "Could not validate the connection to S3, exceptions gathered during checks:\n "

  /**
    What one probe did. A service error is rethrown as a storage error whose
    message names the probe; any other exception escapes with its own
    message. Either message may be absent (a Java `null`).
   */
  datatype CheckOutcome = Passed | ServiceError(serviceMessage: Option<string>) | OtherError(message: Option<string>)

  /** One checker together with what its `validate` call does. */
  datatype Probe = Probe(checker: Checker, outcome: CheckOutcome)

  /** The store's checkers in the order it tries them: bucket policy, then ACL. */
  function StoreProbes(policy: CheckOutcome, acl: CheckOutcome): seq<Probe> {
    [Probe(BucketPolicy, policy), Probe(AccessControlList, acl)]
  }

  /** The validation verdict: the client is kept, or startup fails with a message. */
  datatype Validation = Valid | Invalid(message: string)

  /** Java string conversion of a possibly absent message. */
  function JavaText(m: Option<string>): (t: string)
    ensures m.Some? ==> t == m.value
    ensures m.None? ==> t == "null"
  {
    match m
    case None => "null"
    case Some(s) => s
  }

  function ServicePrefix(c: Checker): string {
    match c
    case BucketPolicy => "Server error getting bucket policy: "
    case AccessControlList => "Server error listing bucket ACLs: "
  }

  /**
    The message of the exception a failed probe throws; a passing one throws
    none. A service error's message starts by naming the probe that failed,
    so the policy probe's and the ACL probe's service errors never read alike.
   */
  function FailureMessage(p: Probe): (t: string)
    ensures p.outcome.Passed? ==> t == ""
    ensures p.outcome.ServiceError? ==> t == ServicePrefix(p.checker) + JavaText(p.outcome.serviceMessage)
    ensures p.outcome.OtherError? ==> t == JavaText(p.outcome.message)
    ensures p.outcome.ServiceError? ==> (ServicePrefix(BucketPolicy) <= t <==> p.checker == BucketPolicy)
    ensures p.outcome.ServiceError? ==> (ServicePrefix(AccessControlList) <= t <==> p.checker == AccessControlList)
  {
    match p.outcome
    case Passed => ""
    case ServiceError(m) =>
      var t := ServicePrefix(p.checker) + JavaText(m);
      assert t[13] == (if p.checker == BucketPolicy then 'g' else 'l');
      t
    case OtherError(m) => JavaText(m)
  }

  /** Lines joined with a newline between consecutive ones. */
  function JoinLines(lines: seq<string>): string
    decreases |lines|
  {
    if |lines| == 0 then ""
    else if |lines| == 1 then lines[0]
    else JoinLines(lines[..|lines| - 1]) + "\n" + lines[|lines| - 1]
  }

  /** What one probe adds to the gathered messages: nothing when it passed. */
  function MessageOf(p: Probe): seq<string> {
    if p.outcome.Passed? then [] else [FailureMessage(p)]
  }

  /** The failure messages of the failing probes, in order. */
  function Messages(probes: seq<Probe>): (ms: seq<string>)
    ensures |ms| <= |probes|
    decreases |probes|
  {
    if |probes| == 0 then [] else Messages(probes[..|probes| - 1]) + MessageOf(probes[|probes| - 1])
  }

  /** One more probe adds its message, if it failed, at the end. */
  lemma MessagesStep(probes: seq<Probe>, i: nat)
    requires i < |probes|
    ensures Messages(probes[..i + 1]) == Messages(probes[..i]) + MessageOf(probes[i])
  {
    assert probes[..i + 1][..i] == probes[..i];
  }

  /** Whether some probe succeeds. */
  predicate SomePasses(probes: seq<Probe>) {
    exists j :: 0 <= j < |probes| && probes[j].outcome.Passed?
  }

  /** A failing probe after failing ones leaves no success so far. */
  lemma NoPassExtends(probes: seq<Probe>, i: nat)
    requires i < |probes|
    requires !SomePasses(probes[..i]) && !probes[i].outcome.Passed?
    ensures !SomePasses(probes[..i + 1])
  {
    var seen := probes[..i + 1];
    forall j | 0 <= j < |seen|
      ensures !seen[j].outcome.Passed?
    {
      if j < i {
        assert seen[j] == probes[..i][j];
      }
    }
  }

  /**
    When every probe fails, every probe contributes exactly one message, in
    probe order.
   */
  lemma {:induction false} MessagesWhenAllFail(probes: seq<Probe>)
    requires !SomePasses(probes)
    ensures |Messages(probes)| == |probes|
    ensures forall j :: 0 <= j < |probes| ==> Messages(probes)[j] == FailureMessage(probes[j])
    decreases |probes|
  {
    if |probes| > 0 {
      var n := |probes| - 1;
      var init := probes[..n];
      NoPassBefore(probes, n);
      MessagesWhenAllFail(init);
      assert !probes[n].outcome.Passed?;
      var ms := Messages(init);
      assert Messages(probes) == ms + [FailureMessage(probes[n])];
      forall j | 0 <= j < |probes|
        ensures Messages(probes)[j] == FailureMessage(probes[j])
      {
        if j < n {
          calc {
            Messages(probes)[j];
            ms[j];
            FailureMessage(init[j]);
            { assert init[j] == probes[j]; }
            FailureMessage(probes[j]);
          }
        }
      }
    }
  }

  /** No success among all probes means none among the first few. */
  lemma NoPassBefore(probes: seq<Probe>, n: nat)
    requires n <= |probes| && !SomePasses(probes)
    ensures !SomePasses(probes[..n])
  {
    var init := probes[..n];
    forall j | 0 <= j < |init|
      ensures !init[j].outcome.Passed?
    {
      assert init[j] == probes[j];
    }
  }

  /**
    With the store's two checkers both failing, the gathered messages are the
    policy checker's, a newline, and the ACL checker's.
   */
  lemma BothFailMessage(policy: CheckOutcome, acl: CheckOutcome)
    requires !policy.Passed? && !acl.Passed?
    ensures JoinLines(Messages(StoreProbes(policy, acl))) ==
      FailureMessage(Probe(BucketPolicy, policy)) + "\n" + FailureMessage(Probe(AccessControlList, acl))
  {
    var probes := StoreProbes(policy, acl);
    var first := FailureMessage(probes[0]);
    var second := FailureMessage(probes[1]);
    assert probes[..0] == [];
    assert probes[..2] == probes;
    MessagesStep(probes, 0);
    MessagesStep(probes, 1);
    assert Messages(probes) == [first, second];
    assert [first, second][..1] == [first];
  }

  /** The loop's step past a failing probe. */
  lemma FailedAt(probes: seq<Probe>, i: nat)
    requires i < |probes| && !probes[i].outcome.Passed?
    requires !SomePasses(probes[..i])
    ensures Messages(probes[..i + 1]) == Messages(probes[..i]) + [FailureMessage(probes[i])]
    ensures !SomePasses(probes[..i + 1])
  {
    MessagesStep(probes, i);
    NoPassExtends(probes, i);
  }

  /** The loop's exit at the first passing probe. */
  lemma PassedAt(probes: seq<Probe>, i: nat)
    requires i < |probes| && probes[i].outcome.Passed?
    requires !SomePasses(probes[..i])
    ensures SomePasses(probes)
    ensures var tried := probes[..i + 1];
      tried[|tried| - 1].outcome.Passed? && !SomePasses(tried[..|tried| - 1])
  {
    var tried := probes[..i + 1];
    assert tried[..i] == probes[..i];
    assert tried[i] == probes[i];
  }

  /**
    `validateClient`: runs the checkers in order and stops after the first
    that succeeds; fails only when every checker failed, with the header
    followed by all gathered messages, one per line. `tried` is the probes
    actually run.
   */
  method ValidateClient(probes: seq<Probe>) returns (r: Validation, tried: seq<Probe>)
    ensures tried <= probes
    ensures r.Valid? <==> SomePasses(probes)
    ensures r.Valid? ==> |tried| > 0 && tried[|tried| - 1].outcome.Passed? && !SomePasses(tried[..|tried| - 1])
    ensures r.Invalid? ==> tried == probes && r.message == HEADER + JoinLines(Messages(probes))
    ensures r.Invalid? ==> |Messages(probes)| == |probes|
    ensures r.Invalid? ==> forall j :: 0 <= j < |probes| ==> Messages(probes)[j] == FailureMessage(probes[j])
  {
    var failures: seq<string> := [];
    var i := 0;
    while i < |probes|
      invariant 0 <= i <= |probes|
      invariant !SomePasses(probes[..i])
      invariant failures == Messages(probes[..i])
      invariant |failures| == i
    {
      var p := probes[i];
      if p.outcome.Passed? {
        PassedAt(probes, i);
        r, tried := Valid, probes[..i + 1];
        return;
      }
      FailedAt(probes, i);
      failures := failures + [FailureMessage(p)];
      i := i + 1;
    }
    assert probes[..i] == probes;
    MessagesWhenAllFail(probes);
    r, tried := Invalid(HEADER + JoinLines(failures)), probes;
  }
}

=== FILE: decimal.dfy ===
/**
  Decimal text of integers: what `Long.toString` (and `%d`) writes and what
  `Long.parseLong` reads back from a run of ASCII digits.
 */
module Decimal {
  import opened Primitives

  predicate IsDigit(c: char) {
    '0' <= c <= '9'
  }

  predicate AllDigits(s: string) {
    forall i :: 0 <= i < |s| ==> IsDigit(s[i])
  }

  /** A non-empty run of ASCII digits: what `\d+` matches in a Java pattern. */
  predicate IsDigitRun(s: string) {
    |s| > 0 && AllDigits(s)
  }

  /** A digit run without superfluous leading zeros, as `Long.toString` writes it. */
  predicate IsCanonical(s: string) {
    IsDigitRun(s) && (|s| > 1 ==> s[0] != '0')
  }

  function DigitValue(c: char): (d: nat)
    requires IsDigit(c)
    ensures d < 10
  {
    c as int - '0' as int
  }

  function DigitChar(d: nat): (c: char)
    requires d < 10
    ensures IsDigit(c) && DigitValue(c) == d
  {
    ('0' as int + d) as char
  }

  /** The number a string of digits denotes, most significant digit first. */
  function Value(s: string): nat
    requires AllDigits(s)
  {
    if |s| == 0 then 0 else Value(s[..|s| - 1]) * 10 + DigitValue(s[|s| - 1])
  }

  /** Decimal text of a natural number, most significant digit first. */
  function NatToString(n: nat): (s: string)
    ensures IsCanonical(s)
    ensures n > 0 ==> s[0] != '0'
  {
    if n < 10 then [DigitChar(n)] else NatToString(n / 10) + [DigitChar(n % 10)]
  }

  /** `Long.toString`: a minus sign before the magnitude of a negative number. */
  function LongToString(v: Long): (s: string)
    ensures v >= 0 ==> IsCanonical(s) && Value(s) == v
    ensures v < 0 ==> |s| > 1 && s[0] == '-' && IsCanonical(s[1..]) && Value(s[1..]) == -(v as int)
  {
    if v < 0 then
      ValueOfNatToString(-(v as int));
      "-" + NatToString(-(v as int))
    else
      ValueOfNatToString(v);
      NatToString(v)
  }

  /**
    `Long.parseLong` applied to a digit run: the run's value, or `None` where
    the Java method throws `NumberFormatException` because the value does not
    fit in a `long`.
   */
  function ParseLong(s: string): (r: Option<Long>)
    requires IsDigitRun(s)
    ensures r.Some? ==> r.value == Value(s)
    ensures r.None? ==> Value(s) > LONG_MAX
  {
    if Value(s) <= LONG_MAX then Some(Value(s)) else None
  }

  /** Reading back what `NatToString` wrote gives the number. */
  lemma {:induction false} ValueOfNatToString(n: nat)
    ensures Value(NatToString(n)) == n
  {
    if n >= 10 {
      var s := NatToString(n / 10);
      var t := s + [DigitChar(n % 10)];
      assert t[..|t| - 1] == s;
      ValueOfNatToString(n / 10);
    }
  }

  /** A digit run that does not start with `0` denotes a positive number. */
  lemma {:induction false} LeadingDigitPositive(s: string)
    requires IsDigitRun(s) && s[0] != '0'
    ensures Value(s) >= 1
  {
    if |s| > 1 {
      var p := s[..|s| - 1];
      assert p[0] == s[0];
      LeadingDigitPositive(p);
    }
  }

  /** Writing out the value of a canonical digit run gives the run back. */
  lemma {:induction false} NatToStringOfValue(s: string)
    requires IsCanonical(s)
    ensures NatToString(Value(s)) == s
  {
    var p := s[..|s| - 1];
    var c := s[|s| - 1];
    if |s| == 1 {
      assert Value(s) == DigitValue(c);
      assert DigitChar(DigitValue(c)) == c;
      assert [c] == s;
    } else {
      assert p[0] == s[0];
      LeadingDigitPositive(p);
      NatToStringOfValue(p);
      assert Value(s) / 10 == Value(p) && Value(s) % 10 == DigitValue(c);
      assert DigitChar(DigitValue(c)) == c;
      assert p + [c] == s;
    }
  }

  /** `Long.parseLong` reads back every non-negative `long` that `Long.toString` wrote. */
  lemma ParseLongOfToString(v: Long)
    requires v >= 0
    ensures ParseLong(LongToString(v)) == Some(v)
  {
  }
}

=== FILE: primitives.dfy ===
/**
  Java primitive types the blob store relies on: `long` and `int` are bounded
  two's-complement integers, and `java.util.Optional` is an option type.
 */
module Primitives {

  /** `java.util.Optional`: either empty or holding one value. */
  datatype Option<+T> = None | Some(value: T)

  const LONG_MIN: int := -0x8000_0000_0000_0000
  const LONG_MAX: int := 0x7fff_ffff_ffff_ffff
  const INT_MIN: int := -0x8000_0000
  const INT_MAX: int := 0x7fff_ffff

  /** A Java `long`. */
  type Long = v: int | LONG_MIN <= v <= LONG_MAX

  /** A Java `int`. */
  type Int = v: int | INT_MIN <= v <= INT_MAX

  /**
    Reduction to 32 bits, as Java's `(int)` cast of a `long` and overflowing
    `int` arithmetic both perform.
   */
  function ToInt(v: int): (r: Int)
    ensures INT_MIN <= v <= INT_MAX ==> r == v
    ensures (v - r) % 0x1_0000_0000 == 0
  {
    (v - INT_MIN) % 0x1_0000_0000 + INT_MIN
  }
}

=== FILE: s3_blob_store.dfy ===
/**
  The S3 blob store facade's decisions: what each call writes, deletes or
  schedules for asynchronous deletion, what it returns or throws, and which
  listener notification it sends.
 */
module S3BlobStore {
  import opened Primitives
  import opened BoundsFilter
  import opened BoundsGrammar
  import opened BlobStore

  const ZOOM_START_MESSAGE: string := "zoom start must be greater or equal than zero"
  const ZOOM_STOP_MESSAGE: string := "zoom stop must be greater or equal than start zoom"

  /**
    `put`: writes the tile's bytes with its format's MIME type, then the
    parameters document when the tile has parameters, then tells listeners
    whether the tile was new or replaced one (looking the old one up only
    when someone listens). An unknown format fails before anything happens.
   */
  function Put(store: Store, layout: KeyLayout, mimeTypes: string -> Option<string>, hasListeners: bool, tile: TileObject): (r: Trace<()>)
    ensures mimeTypes(tile.address.blobFormat).None? ==> r == Trace(Threw(RuntimeException(Some(MimeException))), [])
    ensures mimeTypes(tile.address.blobFormat).Some? ==>
      && r.outcome.Returned?
      && |r.effects| > 0
      && r.effects[0] == PutObject(layout.forTile(tile.address), mimeTypes(tile.address.blobFormat).value, tile.blob)
      && (forall i :: 1 <= i < |r.effects| ==> r.effects[i].PutProperties? || r.effects[i].Notify?)
      && PropertiesWrites(r.effects) == ParametersWrite(layout, tile)
      && ScheduledPrefixes(r.effects) == []
      && Apply(store.objects, r.effects) == store.objects[layout.forTile(tile.address) := ObjectMetadata(|tile.blob|)]
    ensures mimeTypes(tile.address.blobFormat).Some? && !hasListeners ==> Notifications(r.effects) == []
    ensures mimeTypes(tile.address.blobFormat).Some? && hasListeners ==>
      && r.effects[|r.effects| - 1].Notify?
      && Notifications(r.effects) ==
        if layout.forTile(tile.address) in store.objects
        then [TileUpdated(tile, store.objects[layout.forTile(tile.address)].contentLength)]
        else [TileStored(tile)]
  {
    var key := layout.forTile(tile.address);
    match mimeTypes(tile.address.blobFormat)
    case None => Trace(Threw(RuntimeException(Some(MimeException))), [])
    case Some(mimeType) =>
      var write := [PutObject(key, mimeType, tile.blob)];
      var params := ParametersWrite(layout, tile);
      var notice := TileNotice(store, key, hasListeners, tile);
      StoredLog(store.objects, PutObject(key, mimeType, tile.blob), params, notice);
      Trace(Returned(()), write + (params + notice))
  }

  /**
    The log of a stored tile: the object write, then properties writes, then
    notifications. Only the first step changes the objects.
   */
  lemma StoredLog(objects: map<string, ObjectMetadata>, w: Effect, params: seq<Effect>, notice: seq<Effect>)
    requires w.PutObject?
    requires forall i :: 0 <= i < |params| ==> params[i].PutProperties?
    requires forall i :: 0 <= i < |notice| ==> notice[i].Notify?
    requires Inert(params) && Inert(notice)
    ensures var log := [w] + (params + notice);
      && (forall i :: 1 <= i < |log| ==> log[i].PutProperties? || log[i].Notify?)
      && (|notice| > 0 ==> log[|log| - 1] == notice[|notice| - 1])
      && PropertiesWrites(log) == PropertiesWrites(params) + PropertiesWrites(notice)
      && ScheduledPrefixes(log) == ScheduledPrefixes(params) + ScheduledPrefixes(notice)
      && Notifications(log) == Notifications(params) + Notifications(notice)
      && Apply(objects, log) == ApplyOne(objects, w)
  {
    var rest := params + notice;
    var log := [w] + rest;
    ProjectionsAppend(params, notice);
    ProjectionsAppend([w], rest);
    ProjectionsSingle(w);
    PropertiesAppend(params, notice);
    PropertiesAppend([w], rest);
    InertAppend(params, notice);
    ApplyThenInert(objects, w, rest);
    forall i | 1 <= i < |log|
      ensures log[i].PutProperties? || log[i].Notify?
    {
      assert log[i] == rest[i - 1];
      if i - 1 < |params| {
        assert rest[i - 1] == params[i - 1];
      } else {
        assert rest[i - 1] == notice[i - 1 - |params|];
      }
    }
  }

  /**
    `putParametersMetadata`: with parameters, one properties document under
    the layer's key for the tile's parameters id, holding those parameters;
    without, nothing.
   */
  function ParametersWrite(layout: KeyLayout, tile: TileObject): (effects: seq<Effect>)
    ensures tile.parameters.None? ==> effects == []
    ensures tile.parameters.Some? ==>
      effects == [PutProperties(layout.parametersMetadata(tile.address.layerName, tile.address.parametersId), tile.parameters.value)]
    ensures PropertiesWrites(effects) == effects
    ensures forall i :: 0 <= i < |effects| ==> effects[i].PutProperties?
    ensures Inert(effects)
    ensures ScheduledPrefixes(effects) == [] && Notifications(effects) == []
  {
    match tile.parameters
    case None => []
    case Some(p) =>
      var effects := [PutProperties(layout.parametersMetadata(tile.address.layerName, tile.address.parametersId), p)];
      ProjectionsSingle(effects[0]);
      effects
  }

  /** The notification `put` ends with: none without listeners, else stored or updated. */
  function TileNotice(store: Store, key: string, hasListeners: bool, tile: TileObject): (effects: seq<Effect>)
    ensures |effects| == if hasListeners then 1 else 0
    ensures forall i :: 0 <= i < |effects| ==> effects[i].Notify?
    ensures Inert(effects)
    ensures ScheduledPrefixes(effects) == [] && PropertiesWrites(effects) == []
    ensures Notifications(effects) ==
      if !hasListeners then []
      else if key in store.objects then [TileUpdated(tile, store.objects[key].contentLength)]
      else [TileStored(tile)]
  {
    if !hasListeners then []
    else
      var effects := match store.Metadata(key)
        case Some(m) => [Notify(TileUpdated(tile, m.contentLength))]
        case None => [Notify(TileStored(tile))];
      ProjectionsSingle(effects[0]);
      effects
  }

  /**
    What `delete(TileObject)` leaves behind: the call's trace, and the
    caller's tile object afterwards, whose recorded size the call may
    overwrite.
   */
  datatype TileDeletion = TileDeletion(trace: Trace<bool>, tile: TileObject)

  /**
    `delete(TileObject)`: without listeners, deletes the object and returns
    what the store says; with listeners, deletes only an object that exists,
    records its stored size, narrowed to an `int`, on the caller's tile, and
    reports that tile.
   */
  function DeleteTile(store: Store, layout: KeyLayout, hasListeners: bool, tile: TileObject): (r: TileDeletion)
    ensures !hasListeners ==>
      && r.trace.outcome == Returned(store.deleteObject(layout.forTile(tile.address)))
      && r.trace.effects == [DeleteObject(layout.forTile(tile.address))]
      && r.tile == tile
    ensures hasListeners && layout.forTile(tile.address) !in store.objects ==>
      r == TileDeletion(Trace(Returned(false), []), tile)
    ensures hasListeners && layout.forTile(tile.address) in store.objects ==>
      && r.trace.outcome == Returned(true)
      && r.trace.effects == [DeleteObject(layout.forTile(tile.address)), Notify(TileDeleted(r.tile))]
      && r.tile == tile.(blobSize := ToInt(store.objects[layout.forTile(tile.address)].contentLength))
    ensures ScheduledPrefixes(r.trace.effects) == [] && PropertiesWrites(r.trace.effects) == []
    ensures Apply(store.objects, r.trace.effects) == store.objects - {layout.forTile(tile.address)}
    ensures hasListeners ==>
      Notifications(r.trace.effects) ==
        if layout.forTile(tile.address) in store.objects then [TileDeleted(r.tile)] else []
  {
    var key := layout.forTile(tile.address);
    if !hasListeners then
      ProjectionsSingle(DeleteObject(key));
      assert [DeleteObject(key)][1..] == [];
      TileDeletion(Trace(Returned(store.deleteObject(key)), [DeleteObject(key)]), tile)
    else
      match store.Metadata(key)
      case None =>
        assert store.objects - {key} == store.objects;
        TileDeletion(Trace(Returned(false), []), tile)
      case Some(stored) =>
        var deleted := tile.(blobSize := ToInt(stored.contentLength));
        var effects := [DeleteObject(key)] + [Notify(TileDeleted(deleted))];
        ProjectionsAppend([DeleteObject(key)], [Notify(TileDeleted(deleted))]);
        PropertiesAppend([DeleteObject(key)], [Notify(TileDeleted(deleted))]);
        ProjectionsSingle(DeleteObject(key));
        ProjectionsSingle(Notify(TileDeleted(deleted)));
        ApplyThenInert(store.objects, DeleteObject(key), [Notify(TileDeleted(deleted))]);
        TileDeletion(Trace(Returned(true), effects), deleted)
  }

  /**
    When the store's answer to a deletion says whether the object existed,
    listeners make no difference to what `delete(TileObject)` returns or to
    which objects remain.
   */
  lemma DeleteTileListenersAgree(store: Store, layout: KeyLayout, tile: TileObject)
    requires store.ReportsExistence(layout.forTile(tile.address))
    ensures DeleteTile(store, layout, true, tile).trace.outcome == DeleteTile(store, layout, false, tile).trace.outcome
    ensures Apply(store.objects, DeleteTile(store, layout, true, tile).trace.effects) ==
      Apply(store.objects, DeleteTile(store, layout, false, tile).trace.effects)
  {
  }

  /**
    The notifications of `put` keep a listener that tracks tile existence
    and size in step with the store: the one notification sent agrees with
    what the listener knew, and afterwards the listener knows what is stored.
   */
  lemma PutKeepsListenersInStep(store: Store, layout: KeyLayout, mimeTypes: string -> Option<string>, tile: TileObject, view: map<string, Long>)
    requires view == Sizes(store.objects)
    requires mimeTypes(tile.address.blobFormat).Some?
    ensures var r := Put(store, layout, mimeTypes, true, tile);
      && |Notifications(r.effects)| == 1
      && Consistent(layout, view, Notifications(r.effects)[0])
      && ObserveAll(layout, view, Notifications(r.effects)) == Sizes(Apply(store.objects, r.effects))
  {
    var r := Put(store, layout, mimeTypes, true, tile);
    var key := layout.forTile(tile.address);
    var n := if key in store.objects then TileUpdated(tile, store.objects[key].contentLength) else TileStored(tile);
    assert Notifications(r.effects) == [n];
    ObserveOne(layout, view, n);
    SizesUpdate(store.objects, key, ObjectMetadata(|tile.blob|));
  }

  /** The same for `delete(TileObject)`. */
  lemma DeleteTileKeepsListenersInStep(store: Store, layout: KeyLayout, tile: TileObject, view: map<string, Long>)
    requires view == Sizes(store.objects)
    ensures var r := DeleteTile(store, layout, true, tile).trace;
      && |Notifications(r.effects)| <= 1
      && (forall i :: 0 <= i < |Notifications(r.effects)| ==> Consistent(layout, view, Notifications(r.effects)[i]))
      && ObserveAll(layout, view, Notifications(r.effects)) == Sizes(Apply(store.objects, r.effects))
  {
    var d := DeleteTile(store, layout, true, tile);
    var key := layout.forTile(tile.address);
    SizesUpdate(store.objects, key, ObjectMetadata(0));
    if key in store.objects {
      var n := TileDeleted(d.tile);
      assert Notifications(d.trace.effects) == [n];
      ObserveOne(layout, view, n);
    }
  }

  // ---------------------------------------------------------------------
  // Coarse deletes: a layer, a gridset, a parameter set

  /** Index of the first prefix whose scheduling throws; the length when none does. */
  function FirstRefusal(store: Store, prefixes: seq<string>): (k: nat)
    ensures k <= |prefixes|
    ensures forall i :: 0 <= i < k ==> store.scheduleAsyncDelete(prefixes[i]).Scheduled?
    ensures k < |prefixes| ==> !store.scheduleAsyncDelete(prefixes[k]).Scheduled?
  {
    if |prefixes| == 0 || !store.scheduleAsyncDelete(prefixes[0]).Scheduled? then 0
    else 1 + FirstRefusal(store, prefixes[1..])
  }

  /**
    Reference behaviour of a coarse delete over `prefixes`: every prefix is
    handed to the scheduler in order until one throws; if none throws, the
    call returns whether any prefix had content and sends `note` exactly
    then, as its last effect; if one throws, the call throws after scheduling it and sends
    nothing.
   */
  predicate CoarseDelete(store: Store, prefixes: seq<string>, note: Notification, r: Trace<bool>) {
    var k := FirstRefusal(store, prefixes);
    if k == |prefixes| then
      && ScheduledPrefixes(r.effects) == prefixes
      && r.outcome == Returned(exists i :: 0 <= i < |prefixes| && store.scheduleAsyncDelete(prefixes[i]) == Scheduled(true))
      && Notifications(r.effects) == (if r.outcome.value then [note] else [])
      && (r.outcome.value ==> |r.effects| > 0 && r.effects[|r.effects| - 1] == Notify(note))
    else
      && ScheduledPrefixes(r.effects) == prefixes[..k + 1]
      && r.outcome.Threw?
      && Notifications(r.effects) == []
  }

  /** The result of scheduling a list of prefixes one after another. */
  datatype PrefixRun = PrefixRun(effects: seq<Effect>, existed: bool, refusal: Option<ScheduleReply>)

  /**
    Schedules every prefix in order without stopping at a `true` reply, and
    combines the replies with a logical or; the first exception ends the run.
   */
  function SchedulePrefixes(store: Store, prefixes: seq<string>): (r: PrefixRun)
    ensures r.refusal.None? <==> FirstRefusal(store, prefixes) == |prefixes|
    ensures |r.effects| == if r.refusal.None? then |prefixes| else FirstRefusal(store, prefixes) + 1
    ensures forall i :: 0 <= i < |r.effects| ==> r.effects[i] == ScheduleDelete(prefixes[i])
    ensures r.refusal.Some? ==> r.refusal.value == store.scheduleAsyncDelete(prefixes[FirstRefusal(store, prefixes)])
    ensures r.refusal.None? ==>
      (r.existed <==> exists i :: 0 <= i < |prefixes| && store.scheduleAsyncDelete(prefixes[i]) == Scheduled(true))
  {
    if |prefixes| == 0 then PrefixRun([], false, None)
    else
      var step := ScheduleDelete(prefixes[0]);
      match store.scheduleAsyncDelete(prefixes[0])
      case Scheduled(existed) =>
        var rest := SchedulePrefixes(store, prefixes[1..]);
        assert forall i :: 1 <= i < |prefixes| ==> prefixes[1..][i - 1] == prefixes[i];
        PrefixRun([step] + rest.effects, existed || rest.existed, rest.refusal)
      case refusal => PrefixRun([step], false, Some(refusal))
  }

  /**
    The trace of a coarse delete after its scheduling run: the run's steps
    and `note` when a prefix had content, or the run's steps and `thrown`
    when the scheduler threw.
   */
  function RunTrace(run: PrefixRun, note: Notification, thrown: Exception): (r: Trace<bool>)
    requires forall i :: 0 <= i < |run.effects| ==> run.effects[i].ScheduleDelete?
    ensures run.refusal.Some? ==> r == Trace(Threw(thrown), run.effects)
    ensures run.refusal.None? ==>
      r == Trace(Returned(run.existed), run.effects + (if run.existed then [Notify(note)] else []))
    ensures forall i :: 0 <= i < |r.effects| ==> r.effects[i].ScheduleDelete? || r.effects[i] == Notify(note)
  {
    if run.refusal.Some? then Trace(Threw(thrown), run.effects)
    else Trace(Returned(run.existed), run.effects + (if run.existed then [Notify(note)] else []))
  }

  /** How `delete(layerName)` and `deleteByGridsetId` rethrow a scheduling failure. */
  function Rethrown(refusal: Option<ScheduleReply>): Exception {
    if refusal == Some(GeoWebCacheError) then RuntimeException(Some(GeoWebCacheException)) else RuntimeException(None)
  }

  /** A run's trace: the scheduling steps, then the notification if a prefix had content. */
  lemma RunSatisfiesCoarseDelete(store: Store, prefixes: seq<string>, note: Notification, run: PrefixRun, r: Trace<bool>)
    requires run == SchedulePrefixes(store, prefixes)
    requires run.refusal.None? ==>
      r == Trace(Returned(run.existed), run.effects + (if run.existed then [Notify(note)] else []))
    requires run.refusal.Some? ==> r.outcome.Threw? && r.effects == run.effects
    ensures CoarseDelete(store, prefixes, note, r)
  {
    OnlySchedules(run.effects, prefixes);
    if run.refusal.None? {
      var tail := if run.existed then [Notify(note)] else [];
      ProjectionsAppend(run.effects, tail);
      ProjectionsSingle(Notify(note));
      assert prefixes[..|prefixes|] == prefixes;
    }
  }

  /** An object deletion logged first changes neither what was scheduled nor what was sent. */
  lemma CoarseDeleteAfterDelete(store: Store, prefixes: seq<string>, note: Notification, r: Trace<bool>, key: string)
    requires CoarseDelete(store, prefixes, note, r)
    ensures CoarseDelete(store, prefixes, note, r.(effects := [DeleteObject(key)] + r.effects))
  {
    var effects := [DeleteObject(key)] + r.effects;
    ProjectionsAppend([DeleteObject(key)], r.effects);
    ProjectionsSingle(DeleteObject(key));
    if |r.effects| > 0 {
      assert effects[|effects| - 1] == r.effects[|r.effects| - 1];
    }
  }

  /** An object deletion followed by scheduling steps and notifications removes just that object. */
  lemma DeletionThenRun(objects: map<string, ObjectMetadata>, key: string, effects: seq<Effect>)
    requires forall i :: 0 <= i < |effects| ==> effects[i].ScheduleDelete? || effects[i].Notify?
    ensures var log := [DeleteObject(key)] + effects;
      && (forall i :: 1 <= i < |log| ==> log[i].ScheduleDelete? || log[i].Notify?)
      && Apply(objects, log) == objects - {key}
  {
    var log := [DeleteObject(key)] + effects;
    assert Inert(effects);
    ApplyThenInert(objects, DeleteObject(key), effects);
    assert forall i :: 1 <= i < |log| ==> log[i] == effects[i - 1];
  }

  /** Both of the above, for a coarse delete whose run only schedules and notifies. */
  lemma DeletionBeforeCoarseDelete(store: Store, prefixes: seq<string>, note: Notification, r: Trace<bool>, key: string)
    requires CoarseDelete(store, prefixes, note, r)
    requires forall i :: 0 <= i < |r.effects| ==> r.effects[i].ScheduleDelete? || r.effects[i].Notify?
    ensures var log := [DeleteObject(key)] + r.effects;
      && CoarseDelete(store, prefixes, note, r.(effects := log))
      && (forall i :: 1 <= i < |log| ==> log[i].ScheduleDelete? || log[i].Notify?)
      && Apply(store.objects, log) == store.objects - {key}
  {
    CoarseDeleteAfterDelete(store, prefixes, note, r, key);
    DeletionThenRun(store.objects, key, r.effects);
  }

  /**
    `delete(layerName)`: deletes the layer's metadata document first, whatever
    happens next, then schedules the layer prefix and sends `layerDeleted`
    exactly when the prefix had content. A checked scheduling failure is
    rethrown unchecked.
   */
  function DeleteLayer(store: Store, layout: KeyLayout, layerName: string): (r: Trace<bool>)
    ensures |r.effects| > 0 && r.effects[0] == DeleteObject(layout.layerMetadata(layerName))
    ensures forall i :: 1 <= i < |r.effects| ==> r.effects[i].ScheduleDelete? || r.effects[i].Notify?
    ensures Apply(store.objects, r.effects) == store.objects - {layout.layerMetadata(layerName)}
    ensures CoarseDelete(store, [layout.forLayer(layerName)], LayerDeleted(layerName), r)
    ensures r.outcome.Threw? ==>
      r.outcome.exception == match store.scheduleAsyncDelete(layout.forLayer(layerName))
        case GeoWebCacheError => RuntimeException(Some(GeoWebCacheException))
        case _ => RuntimeException(None)
  {
    var metadataKey := layout.layerMetadata(layerName);
    var layerPrefix := layout.forLayer(layerName);
    var run := SchedulePrefixes(store, [layerPrefix]);
    var r := RunTrace(run, LayerDeleted(layerName), Rethrown(run.refusal));
    RunSatisfiesCoarseDelete(store, [layerPrefix], LayerDeleted(layerName), run, r);
    DeletionBeforeCoarseDelete(store, [layerPrefix], LayerDeleted(layerName), r, metadataKey);
    r.(effects := [DeleteObject(metadataKey)] + r.effects)
  }

  /**
    `deleteByGridsetId`: schedules the gridset prefix and sends
    `gridSubsetDeleted` exactly when it had content.
   */
  function DeleteByGridsetId(store: Store, layout: KeyLayout, layerName: string, gridSetId: string): (r: Trace<bool>)
    ensures CoarseDelete(store, [layout.forGridset(layerName, gridSetId)], GridSubsetDeleted(layerName, gridSetId), r)
    ensures forall i :: 0 <= i < |r.effects| ==> r.effects[i].ScheduleDelete? || r.effects[i].Notify?
    ensures r.outcome.Threw? ==>
      r.outcome.exception == match store.scheduleAsyncDelete(layout.forGridset(layerName, gridSetId))
        case GeoWebCacheError => RuntimeException(Some(GeoWebCacheException))
        case _ => RuntimeException(None)
  {
    var gridsetPrefix := layout.forGridset(layerName, gridSetId);
    var note := GridSubsetDeleted(layerName, gridSetId);
    var run := SchedulePrefixes(store, [gridsetPrefix]);
    var r := RunTrace(run, note, Rethrown(run.refusal));
    RunSatisfiesCoarseDelete(store, [gridsetPrefix], note, run, r);
    r
  }

  /**
    `deleteByParametersId`: schedules every prefix of the parameter set,
    without short-circuiting once one reports content, and sends
    `parametersDeleted` exactly when any did. The first scheduling failure
    ends the run and is rethrown as the cause of an unchecked exception.
   */
  function DeleteByParametersId(store: Store, layout: KeyLayout, layerName: string, parametersId: string): (r: Trace<bool>)
    ensures CoarseDelete(store, layout.forParameters(layerName, parametersId), ParametersDeleted(layerName, parametersId), r)
    ensures forall i :: 0 <= i < |r.effects| ==> r.effects[i].ScheduleDelete? || r.effects[i].Notify?
    ensures r.outcome.Threw? ==> r.outcome.exception.RuntimeException? && r.outcome.exception.cause.Some?
    ensures var prefixes := layout.forParameters(layerName, parametersId);
      r.outcome.Threw? ==>
        && FirstRefusal(store, prefixes) < |prefixes|
        && r.outcome.exception == match store.scheduleAsyncDelete(prefixes[FirstRefusal(store, prefixes)])
          case GeoWebCacheError => RuntimeException(Some(GeoWebCacheException))
          case _ => RuntimeException(Some(RuntimeException(None)))
  {
    var prefixes := layout.forParameters(layerName, parametersId);
    var note := ParametersDeleted(layerName, parametersId);
    var run := SchedulePrefixes(store, prefixes);
    var thrown := RuntimeException(Some(if run.refusal == Some(GeoWebCacheError) then GeoWebCacheException else RuntimeException(None)));
    var r := RunTrace(run, note, thrown);
    RunSatisfiesCoarseDelete(store, prefixes, note, run, r);
    r
  }

  // ---------------------------------------------------------------------
  // Deleting a tile range, one bounded prefix per zoom level

  /** What the `Bounds` parser makes of a listed prefix: the literal prefix to list under, and the rectangle. */
  datatype Reading = Reading(listing: string, parsed: Parsed)

  /** `prefixWithoutBounds` and `createBounds` applied to the same prefix. */
  function ReadingOf(p: string): Reading {
    Reading(PrefixWithoutBounds(p), CreateBounds(p))
  }

  /**
    What the parser should recover from the prefix `p` scheduled for
    `level`: the level's zoom path and rectangle when the path is a possible
    prefix group and no coordinate is negative; otherwise all of `p`, and no
    rectangle.
   */
  function LevelReading(layout: KeyLayout, tr: TileRange, level: Int, p: string): Reading {
    var path, b := layout.forZoomLevel(tr, level), FromArray(tr.rangeBounds(level));
    if IsPrefixGroup(path) && b.NonNegative() then Reading(path, Parsed(b)) else Reading(p, NoBounds)
  }

  /** The prefix scheduled for one zoom level: the level's path, `?`, and the level's rectangle. */
  function ZoomPrefix(layout: KeyLayout, tr: TileRange, level: Int): string {
    Suffixed(layout.forZoomLevel(tr, level), FromArray(tr.rangeBounds(level)))
  }

  /** One level's prefix reads back as that level. */
  lemma ZoomPrefixReadsBack(layout: KeyLayout, tr: TileRange, level: Int)
    ensures ReadingOf(ZoomPrefix(layout, tr, level)) == LevelReading(layout, tr, level, ZoomPrefix(layout, tr, level))
  {
    RoundTrip(layout.forZoomLevel(tr, level), FromArray(tr.rangeBounds(level)));
  }

  /** The bounded prefixes of the levels `from <= level < until`, in order. */
  function LevelPrefixes(layout: KeyLayout, tr: TileRange, from: Int, until: Int): (ps: seq<string>)
    ensures |ps| == if from < until then until - from else 0
    ensures forall i :: 0 <= i < |ps| ==> ps[i] == ZoomPrefix(layout, tr, from + i)
  {
    var n := if from < until then until - from else 0;
    seq(n, i requires 0 <= i < n => ZoomPrefix(layout, tr, from + i))
  }

  /**
    Every prefix `delete(TileRange)` schedules is one the `Bounds` parser
    reads back as its own level: the level's zoom path to list under and the
    level's rectangle to filter with, whenever that path is a prefix group
    and the rectangle has no negative coordinate.
   */
  lemma LevelPrefixesReadBack(layout: KeyLayout, tr: TileRange, from: Int, until: Int)
    ensures var ps := LevelPrefixes(layout, tr, from, until);
      forall i, level :: 0 <= i < |ps| && level == from + i ==> ReadingOf(ps[i]) == LevelReading(layout, tr, level, ps[i])
  {
    var ps := LevelPrefixes(layout, tr, from, until);
    forall i, level | 0 <= i < |ps| && level == from + i
      ensures ReadingOf(ps[i]) == LevelReading(layout, tr, level, ps[i])
    {
      LevelPrefixAt(layout, tr, from, until, i, level);
      LevelReadsBack(layout, tr, level, ps, i);
    }
  }

  /** The prefix at index `i` is the one for level `from + i`. */
  lemma LevelPrefixAt(layout: KeyLayout, tr: TileRange, from: Int, until: Int, i: int, level: Int)
    requires 0 <= i < |LevelPrefixes(layout, tr, from, until)| && level == from + i
    ensures LevelPrefixes(layout, tr, from, until)[i] == ZoomPrefix(layout, tr, level)
  {
  }

  /** `ZoomPrefixReadsBack`, for a prefix found inside a sequence. */
  lemma LevelReadsBack(layout: KeyLayout, tr: TileRange, level: Int, ps: seq<string>, i: int)
    requires 0 <= i < |ps| && ps[i] == ZoomPrefix(layout, tr, level)
    ensures ReadingOf(ps[i]) == LevelReading(layout, tr, level, ps[i])
  {
    ZoomPrefixReadsBack(layout, tr, level);
  }

  /** Index of the first prefix whose scheduling throws an unchecked exception; the length when none does. */
  function FirstUnchecked(store: Store, prefixes: seq<string>): (k: nat)
    ensures k <= |prefixes|
    ensures forall i :: 0 <= i < k ==> !store.scheduleAsyncDelete(prefixes[i]).RuntimeError?
    ensures k < |prefixes| ==> store.scheduleAsyncDelete(prefixes[k]).RuntimeError?
  {
    if |prefixes| == 0 || store.scheduleAsyncDelete(prefixes[0]).RuntimeError? then 0
    else 1 + FirstUnchecked(store, prefixes[1..])
  }

  /** The result of scheduling consecutive zoom levels. */
  datatype LevelRun = LevelRun(effects: seq<Effect>, scheduled: nat, aborted: bool)

  /**
    Schedules the given level prefixes in order, counting those whose
    scheduling returned: a checked failure only leaves its level uncounted,
    an unchecked one ends the run.
   */
  function ScheduleLevels(store: Store, prefixes: seq<string>): (r: LevelRun)
    ensures r.aborted <==> FirstUnchecked(store, prefixes) < |prefixes|
    ensures |r.effects| == if r.aborted then FirstUnchecked(store, prefixes) + 1 else |prefixes|
    ensures forall i :: 0 <= i < |r.effects| ==> r.effects[i] == ScheduleDelete(prefixes[i])
    ensures r.scheduled <= |r.effects|
    ensures !r.aborted ==>
      (r.scheduled == |prefixes| <==> forall i :: 0 <= i < |prefixes| ==> store.scheduleAsyncDelete(prefixes[i]).Scheduled?)
  {
    if |prefixes| == 0 then LevelRun([], 0, false)
    else
      var step := ScheduleDelete(prefixes[0]);
      match store.scheduleAsyncDelete(prefixes[0])
      case RuntimeError => LevelRun([step], 0, true)
      case GeoWebCacheError =>
        var rest := ScheduleLevels(store, prefixes[1..]);
        LevelRun([step] + rest.effects, rest.scheduled, rest.aborted)
      case Scheduled(_) =>
        var rest := ScheduleLevels(store, prefixes[1..]);
        assert forall i :: 1 <= i < |prefixes| ==> prefixes[1..][i - 1] == prefixes[i];
        LevelRun([step] + rest.effects, rest.scheduled + 1, rest.aborted)
  }

  /**
    Reference behaviour of scheduling the zoom levels' prefixes: each is
    handed to the scheduler in order until one throws an unchecked
    exception, which the call rethrows; otherwise the call returns whether
    every level's scheduling returned normally.
   */
  predicate LevelsScheduled(store: Store, levels: seq<string>, r: Trace<bool>) {
    var k := FirstUnchecked(store, levels);
    && |r.effects| == (if k < |levels| then k + 1 else |levels|)
    && (forall i :: 0 <= i < |r.effects| ==> r.effects[i] == ScheduleDelete(levels[i]))
    && (r.outcome.Threw? <==> k < |levels|)
    && (r.outcome.Threw? ==> r.outcome.exception == RuntimeException(None))
    && (r.outcome.Returned? ==>
          (r.outcome.value <==> forall i :: 0 <= i < |levels| ==> store.scheduleAsyncDelete(levels[i]).Scheduled?))
  }

  /** Running the scheduler over some levels behaves as `LevelsScheduled` describes, success meaning every level counted. */
  lemma LevelRunScheduled(store: Store, levels: seq<string>)
    ensures var run := ScheduleLevels(store, levels);
      LevelsScheduled(store, levels,
        Trace(if run.aborted then Threw(RuntimeException(None)) else Returned(run.scheduled == |levels|), run.effects))
  {
  }

  /** Both zoom arguments are acceptable. */
  predicate ValidZoom(tr: TileRange) {
    0 <= tr.zoomStart <= tr.zoomStop
  }

  /**
    `delete(TileRange)`: rejects a negative start or a stop before the
    start; returns `false` without scheduling anything when the range's
    coordinates prefix has no content; otherwise schedules one bounded
    prefix per zoom level, from start to stop, and returns whether every
    level's scheduling returned. The level bound `zoomStop + 1` and the
    expected count are Java `int` arithmetic, so a stop of
    `Integer.MAX_VALUE` visits no level and returns `false`.
   */
  function DeleteRange(store: Store, layout: KeyLayout, tr: TileRange): (r: Trace<bool>)
    ensures tr.zoomStart < 0 ==> r == Trace(Threw(IllegalArgument(ZOOM_START_MESSAGE)), [])
    ensures 0 <= tr.zoomStart && tr.zoomStop < tr.zoomStart ==>
      r == Trace(Threw(IllegalArgument(ZOOM_STOP_MESSAGE)), [])
    ensures ValidZoom(tr) && !store.prefixExists(layout.coordinatesPrefix(tr)) ==> r == Trace(Returned(false), [])
    ensures ValidZoom(tr) && store.prefixExists(layout.coordinatesPrefix(tr)) && tr.zoomStop < INT_MAX ==>
      LevelsScheduled(store, LevelPrefixes(layout, tr, tr.zoomStart, tr.zoomStop + 1), r)
    ensures ValidZoom(tr) && store.prefixExists(layout.coordinatesPrefix(tr)) && tr.zoomStop == INT_MAX ==>
      r == Trace(Returned(false), [])
  {
    if tr.zoomStart < 0 then Trace(Threw(IllegalArgument(ZOOM_START_MESSAGE)), [])
    else if tr.zoomStop < tr.zoomStart then Trace(Threw(IllegalArgument(ZOOM_STOP_MESSAGE)), [])
    else if !store.prefixExists(layout.coordinatesPrefix(tr)) then Trace(Returned(false), [])
    else
      var until := ToInt(tr.zoomStop + 1);
      var expected := ToInt(tr.zoomStop - tr.zoomStart + 1);
      IntRangeArithmetic(tr);
      ScheduleZoomLevels(store, layout, tr, until, expected)
  }

  /**
    The scheduling loop of `delete(TileRange)` over the levels
    `zoomStart <= level < until`, comparing the number of levels scheduled
    with `expected`. The caller computes both bounds as Java `int`s.
   */
  function ScheduleZoomLevels(store: Store, layout: KeyLayout, tr: TileRange, until: Int, expected: Int): (r: Trace<bool>)
    ensures tr.zoomStart < until && expected == until - tr.zoomStart ==>
      LevelsScheduled(store, LevelPrefixes(layout, tr, tr.zoomStart, until), r)
    ensures until <= tr.zoomStart && expected != 0 ==> r == Trace(Returned(false), [])
  {
    var levels := LevelPrefixes(layout, tr, tr.zoomStart, until);
    var run := ScheduleLevels(store, levels);
    LevelRunScheduled(store, levels);
    if run.aborted then Trace(Threw(RuntimeException(None)), run.effects)
    else Trace(Returned(run.scheduled == expected), run.effects)
  }

  /** The `int` arithmetic of `delete(TileRange)`: exact below `Integer.MAX_VALUE`, wrapping at it. */
  lemma IntRangeArithmetic(tr: TileRange)
    requires ValidZoom(tr)
    ensures tr.zoomStop < INT_MAX ==>
      ToInt(tr.zoomStop + 1) == tr.zoomStop + 1 && ToInt(tr.zoomStop - tr.zoomStart + 1) == tr.zoomStop - tr.zoomStart + 1
    ensures tr.zoomStop == INT_MAX ==>
      ToInt(tr.zoomStop + 1) == INT_MIN && ToInt(tr.zoomStop - tr.zoomStart + 1) != 0
  {
    if tr.zoomStop == INT_MAX && tr.zoomStart == 0 {
      assert ToInt(tr.zoomStop - tr.zoomStart + 1) == INT_MIN;
    }
  }
}
